=== FILE: README.md ===
# Paster clipboard engine — a Dafny model

Paster is a macOS menu-bar clipboard manager. This project models its engine:

- the clipboard entry (`ClipboardItem`): its five content types, its content fingerprint, the classifier that turns a pasteboard snapshot into an entry, and the preview text;
- the history store (`ClipboardHistory`): a newest-first list with a running image counter, a global cap and an image cap, plus deduplication, deletion, clearing, pinning, search and grouping;
- the persistence layer (`StorageService`): one metadata document plus one `<UUID>.png` file per image;
- the pasteboard poller (`ClipboardMonitor`): a timer-driven state machine with an adaptive polling period.

Everything is a pure function over immutable datatypes.

- An operation of the history returns a `Step`: the new history and the storage requests it issued, in order (`CallDeleteImage`, `CallSaveHistory`).
- `StorageService.Apply` carries those requests out on an abstract `Disk`. The document is represented by the entries a decoder would read back. The image directory is a map from file name to bytes.
- I/O failures are a parameter (`Faults`). So are the clock (`now`, integer milliseconds), fresh UUIDs, the pasteboard (a `Snapshot`) and the user settings (`Settings`, the raw integers stored under `maxHistoryCount` and `maxImageCount`).
- The caps are computed from the settings on every call, as the source re-reads them on every access.
- SHA-256 is an uninterpreted constant function returning 32 bytes. Only its hex formatting is modelled.
- Swift's `String ==` compares texts up to Unicode canonical equivalence. The model compares fingerprints through `StringEquals`, which equates two strings exactly when an uninterpreted `CanonicalForm` maps them to the same text.

Files:

| file | module | contents |
|---|---|---|
| `basics.dfy` | `Basics` | optional values, bytes, order-preserving `Filter` and its algebra |
| `hex.dfy` | `Hex` | hexadecimal encoding, its inverse and injectivity |
| `foundation.dfy` | `Foundation` | UUIDs and `uuidString`, the SHA-256 digest, Swift string equality, timestamps |
| `clipboard_item.dfy` | `ClipboardItem` | content types, entries, fingerprint, classifier, preview |
| `storage_service.dfy` | `StorageService` | disk state, save, load, image files, the save/load round trip |
| `clipboard_history.dfy` | `ClipboardHistory` | the history and all its operations and invariants |
| `clipboard_monitor.dfy` | `ClipboardMonitor` | the poller state machine |

The central persistence property: the disk holds the history (`ClipboardHistory.DiskMirrors`) when loading it with no failure gives back every entry with its date cut to whole seconds, and no image entry without bytes has a file a later load would attach. Loading establishes it (`LoadedDiskMirrors`), and `addItem`, `deleteItem`, `deleteItems`, `clearHistory` and `togglePin` each keep it true once their requests are applied. `clearImageCache` does not: after it, images load without their bytes, which is what clearing the cache means.

Two behaviours of the code a reader might not expect:

- **Overflow eviction.** When the global cap pushes entries off the tail, `addItem` decrements the image counter but does not delete the evicted image's file. `OverflowEvictionKeepsImageFile` states this.
- **Duplicate notifications.** `handlePasteboardChange` announces every classified entry, including one that `addItem` discards as a duplicate. `DuplicateStillPosted` states this.

## Model

| member | source | states |
|---|---|---|
| ClipboardItem.ContentType.RawValue | macPaste/Models/ClipboardItem.swift:6-11 | the raw value a type is stored under decodes back to that same type |
| ClipboardItem.RawValueRoundTrip | macPaste/Models/ClipboardItem.swift:6-11 | a string that decodes to a type is exactly that type's raw value, so no two types share a raw value |
| ClipboardItem.ContentType.DisplayName | macPaste/Models/ClipboardItem.swift:13-21 | "图片" exactly for images, "文本" exactly for the four other types |
| ClipboardItem.ContentHash | macPaste/Models/ClipboardItem.swift:51-68 | the fingerprint is the text for plain text, HTML-else-text for rich text, the absolute string for a URL, the path for a file path, each defaulting to ""; for an image with data it is 64 lower-case hex digits, for one without data it is "" |
| ClipboardItem.ContentHashIgnoresIdentity | macPaste/Models/ClipboardItem.swift:46-68 | changing id, creation date or pin flag never changes the fingerprint |
| ClipboardItem.ImageHashMatchesDigest | macPaste/Models/ClipboardItem.swift:57-61 | two images with data have equal fingerprints exactly when their SHA-256 digests are equal (the hex formatting loses nothing) |
| Hex.DecodeEncode | macPaste/Models/ClipboardItem.swift:60 | the `%02x` formatting of bytes can be read back to the same bytes |
| Hex.EncodeInjective | macPaste/Models/ClipboardItem.swift:60 | distinct byte strings format to distinct hex strings |
| Foundation.UuidStringInjective | macPaste/Services/StorageService.swift:118 | distinct UUIDs have distinct `uuidString`s |
| ClipboardItem.FromPasteboard | macPaste/Models/ClipboardItem.swift:93-115 | nothing when the change count is not positive; an image entry whenever a PNG is available, even if text is present; otherwise a plain-text entry exactly when the string is non-empty; never rich text, URL or file path; fresh id, current date, unpinned |
| ClipboardItem.TrimStart | macPaste/Models/ClipboardItem.swift:140 | removes exactly the leading whitespace and newlines |
| ClipboardItem.TrimEnd | macPaste/Models/ClipboardItem.swift:140 | removes exactly the trailing whitespace and newlines |
| ClipboardItem.Trim | macPaste/Models/ClipboardItem.swift:140 | the result is the part of the text left after whitespace at both ends: an infix with only whitespace outside it, empty or neither starting nor ending with whitespace |
| ClipboardItem.TrimUnchanged | macPaste/Models/ClipboardItem.swift:140 | trimming a string without surrounding whitespace is the identity |
| ClipboardItem.ReplaceCrlf | macPaste/Models/ClipboardItem.swift:141 | CRLF→LF never lengthens the text and keeps its first character, except that a leading CR of a CRLF becomes LF |
| ClipboardItem.ReplaceCrlfDropsOnlyCarriageReturns | macPaste/Models/ClipboardItem.swift:141 | apart from carriage returns, the text is unchanged |
| ClipboardItem.ReplaceCrlfConcat | macPaste/Models/ClipboardItem.swift:141 | the replacement works piece by piece wherever the cut does not split a CR from the LF after it |
| ClipboardItem.ReplaceCrlfTurnsCrlf | macPaste/Models/ClipboardItem.swift:141 | each CR followed by LF becomes a single LF, with the text on both sides replaced independently |
| ClipboardItem.ReplaceCrlfKeepsLoneCr | macPaste/Models/ClipboardItem.swift:141 | a CR not followed by LF survives, with the text on both sides replaced independently |
| ClipboardItem.ReplaceCrlfUnchanged | macPaste/Models/ClipboardItem.swift:141 | a text without CR is left as it is |
| ClipboardItem.CollapseNewlines | macPaste/Models/ClipboardItem.swift:142-146 | the result has no two consecutive `\n` and keeps the first character |
| ClipboardItem.CollapseDropsOnlyNewlines | macPaste/Models/ClipboardItem.swift:142-146 | apart from `\n`, the text is unchanged |
| ClipboardItem.CollapseConcat | macPaste/Models/ClipboardItem.swift:142-146 | collapsing works piece by piece wherever the cut does not split a run of `\n` |
| ClipboardItem.CollapseRun | macPaste/Models/ClipboardItem.swift:142-146 | a run of one or more `\n` followed by anything else leaves exactly one `\n` |
| ClipboardItem.CollapseKeepsOneOfRun | macPaste/Models/ClipboardItem.swift:142-146 | between two pieces not touching it with `\n`, a run of `\n` becomes one `\n` and the pieces are collapsed independently |
| ClipboardItem.CollapseUnchanged | macPaste/Models/ClipboardItem.swift:142-146 | a text without a blank line is left as it is |
| ClipboardItem.Take | macPaste/Models/ClipboardItem.swift:147 | `prefix(n)`: the first n characters, or the whole text when it is shorter |
| ClipboardItem.Normalize | macPaste/Models/ClipboardItem.swift:140-146 | the normalised text has no blank line and is empty or starts with a non-whitespace character |
| ClipboardItem.NormalizeDropsOnlyLineBreaks | macPaste/Models/ClipboardItem.swift:140-146 | apart from CR and LF, the normalised text equals the trimmed text; it is empty exactly when the trimmed text is, and starts with the same character |
| ClipboardItem.TextPreview | macPaste/Models/ClipboardItem.swift:139-147 | the preview of a text is the first 200 characters of its normalised form, or all of it when shorter |
| ClipboardItem.PreviewText | macPaste/Models/ClipboardItem.swift:136-152 | "[图片]" for images, "(无文本)" for a text-like entry without text; otherwise the text's preview: at most 200 characters, no two consecutive `\n`, empty or starting with a non-whitespace character |
| ClipboardItem.PreviewOfSingleLine | macPaste/Models/ClipboardItem.swift:139-147 | a text without surrounding whitespace, CR or blank lines previews as its first 200 characters |
| StorageService.ImageFileName | macPaste/Services/StorageService.swift:118 | an image file name is the 36-character `uuidString` plus ".png" |
| StorageService.ImageFileNameInjective | macPaste/Services/StorageService.swift:118 | two entries never share an image file |
| StorageService.Iso8601 | macPaste/Services/StorageService.swift:9 | a stored date is the whole second at or below the original |
| StorageService.Stored | macPaste/Services/StorageService.swift:43-61 | the document form of an entry: an image with data loses its bytes, every other field is kept, and the date is cut to the second |
| StorageService.WriteImages | macPaste/Services/StorageService.swift:42-45 | the image writes of a save never remove a file |
| StorageService.WriteImagesStores | macPaste/Services/StorageService.swift:43-45 | after a save, an image entry whose write succeeded has its bytes under `uuidString + ".png"` |
| StorageService.WriteImagesUntouched | macPaste/Services/StorageService.swift:108-127 | a file that no successful write names keeps its state |
| StorageService.SaveHistory | macPaste/Services/StorageService.swift:39-69 | a failed document write keeps the previous document; otherwise the document holds every entry in order in its stored form; no image file is removed; image write failures do not stop the document write |
| StorageService.LoadImage | macPaste/Services/StorageService.swift:128-137 | bytes come back exactly when the id's `<uuid>.png` file exists and its read does not fail, and they are that file's bytes |
| StorageService.SavedImageLoads | macPaste/Services/StorageService.swift:128-137 | an image file written by a save reads back as the entry's bytes unless the read fails |
| StorageService.Reattach | macPaste/Services/StorageService.swift:81-95 | only `imageData` can change; a non-image entry, or one whose file does not load, is kept as decoded; an image whose file loads gets that file's bytes |
| StorageService.ReattachIdempotent | macPaste/Services/StorageService.swift:81-95 | re-attaching an already re-attached entry changes nothing |
| StorageService.LoadHistory | macPaste/Services/StorageService.swift:72-103 | empty when there is no document or it cannot be read; otherwise same length and order; non-image entries are unchanged; an image gets its file's bytes when the file loads, and otherwise stays as decoded |
| StorageService.DeleteImage | macPaste/Services/StorageService.swift:141-147 | removes exactly that entry's file, keeps every other file and the document, and is a no-op when the file is absent |
| StorageService.ClearImageCache | macPaste/Services/StorageService.swift:150-155 | the image directory ends empty and the document is untouched |
| StorageService.AtWholeSeconds | macPaste/Services/StorageService.swift:9 | every entry with its date cut to the second and nothing else changed |
| StorageService.SaveLoadRoundTrip | macPaste/Services/StorageService.swift:39-103 | saving entries with unique ids, none of whose byte-less image entries has a leftover file, and loading them back with no failure returns the same entries in the same order, image bytes included, with dates at whole seconds |
| StorageService.RoundTripAt | macPaste/Services/StorageService.swift:82-95 | each image entry gets back exactly the bytes the save wrote for it, and one saved without bytes finds no file |
| StorageService.NoFileAfterSave | macPaste/Services/StorageService.swift:42-61 | a save writes files only for image entries with bytes, so an image entry saved without bytes has a file afterwards exactly when it had one before |
| StorageService.SaveAfterDeletes | macPaste/Services/StorageService.swift:39-103 | entries with unique ids, none of whose byte-less image entries has a leftover file, saved after any run of image-file deletions load back as saved (dates at whole seconds), and still no such file exists |
| StorageService.SaveLoadIdentity | macPaste/Services/StorageService.swift:39-103 | with unique ids, no leftover file for a byte-less image entry and dates already at whole seconds, the round trip is exact |
| StorageService.StaleFileIsAttached | macPaste/Services/StorageService.swift:82-95 | an image entry saved without bytes whose file is left over loads back carrying that file's bytes, so the round trip needs the no-leftover-file condition |
| StorageService.ClearCacheDegradesImages | macPaste/Services/StorageService.swift:150-155 | loading after the image cache is cleared returns every entry, with images degraded to no data |
| ClipboardHistory.MaxHistoryCount | macPaste/Models/ClipboardHistory.swift:11-14 | the stored value when positive, else 500 |
| ClipboardHistory.MaxImageCount | macPaste/Models/ClipboardHistory.swift:16-19 | the stored value when positive, else 50 |
| ClipboardHistory.LoadHistory | macPaste/Models/ClipboardHistory.swift:157-160 | the entries are exactly those storage loads, and the counter equals the number of image entries among them; the history is empty without a readable document |
| ClipboardHistory.IsDuplicate | macPaste/Models/ClipboardHistory.swift:141-143 | an entry already in the history, under any id, date or pin, is a duplicate; nothing is a duplicate of an empty history; fingerprints are compared as Swift compares strings |
| ClipboardHistory.EquivalentTextIsDuplicate | macPaste/Models/ClipboardHistory.swift:33-36 | a plain text that Swift's `==` equates with a stored one, such as another normal form of the same letters, is a duplicate, and adding it changes and saves nothing |
| ClipboardHistory.AddItemSameContentIsNoop | macPaste/Models/ClipboardHistory.swift:32-36 | once an entry is added, a new capture with the same fingerprint changes nothing and saves nothing |
| ClipboardHistory.FirstIndexOf | macPaste/Models/ClipboardHistory.swift:61 | the index of the first entry with the id, or none when no entry has it |
| ClipboardHistory.LastImageIndex | macPaste/Models/ClipboardHistory.swift:146 | the index of the last image entry, or none when there is no image |
| ClipboardHistory.ImageDeletions | macPaste/Models/ClipboardHistory.swift:90-95 | the k-th request deletes the file of the k-th image entry, one per image entry |
| ClipboardHistory.RemoveOldestImage | macPaste/Models/ClipboardHistory.swift:145-151 | takes exactly the last image out (pinned or not), keeping the other entries in their order, decrements the counter and requests that file's deletion; nothing when there is no image |
| ClipboardHistory.TrimOverflow | macPaste/Models/ClipboardHistory.swift:49-54 | the loop keeps the first `max` entries, ignoring pins, and subtracts the images cut off from the counter |
| ClipboardHistory.MakeRoom | macPaste/Models/ClipboardHistory.swift:38-44 | the counter stays in step with the images once the new entry is counted; at most one entry is removed, exactly when an image arrives over the cap and an image is present; that entry is the last image, and its file deletion is the only request; otherwise the list is unchanged |
| ClipboardHistory.AddItem | macPaste/Models/ClipboardHistory.swift:32-57 | a duplicate fingerprint changes nothing and saves nothing; otherwise the entry is first, the length is within the cap and the last request is a save of the new list |
| ClipboardHistory.CountImagesSplit | macPaste/Models/ClipboardHistory.swift:49-54 | cutting the list splits its image count |
| ClipboardHistory.AddItemKeepsCounter | macPaste/Models/ClipboardHistory.swift:39-55 | `addItem` keeps the counter equal to the number of image entries |
| ClipboardHistory.DistinctHashesRemoveAt | macPaste/Models/ClipboardHistory.swift:147 | removing an entry keeps fingerprints distinct |
| ClipboardHistory.DistinctHashesPrefix | macPaste/Models/ClipboardHistory.swift:49-54 | cutting the tail keeps fingerprints distinct |
| ClipboardHistory.DistinctHashesCons | macPaste/Models/ClipboardHistory.swift:46 | inserting a non-duplicate at the front keeps fingerprints distinct |
| ClipboardHistory.AddItemKeepsHashesDistinct | macPaste/Models/ClipboardHistory.swift:33-56 | fingerprints that are pairwise distinct as Swift compares strings stay so after `addItem` |
| ClipboardHistory.AddItemEvictsOldestImage | macPaste/Models/ClipboardHistory.swift:39-56 | an image over the image cap first evicts the last image in the list and deletes its file, then the new list is cut to the cap and saved |
| ClipboardHistory.AddItemEvictsFromTail | macPaste/Models/ClipboardHistory.swift:46-56 | otherwise the entry goes first, entries fall off the tail only, pinned or not, and the only request is the save |
| ClipboardHistory.OverflowEvictionKeepsImageFile | macPaste/Models/ClipboardHistory.swift:49-55 | an image pushed off the tail by the global cap keeps its file on disk after the requests are carried out |
| ClipboardHistory.AddItemKeepsImageCap | macPaste/Models/ClipboardHistory.swift:38-44 | a history within the image cap stays within it |
| ClipboardHistory.LoweredImageCapNotEnforced | macPaste/Models/ClipboardHistory.swift:16-19 | after the image cap is lowered below the images held, adding an image leaves the image count unchanged and still above the cap |
| ClipboardHistory.DeleteItem | macPaste/Models/ClipboardHistory.swift:60-69 | removes only the first entry with the id, keeping the order of the rest, deletes its file if it is an image, then saves; an absent id changes and saves nothing |
| ClipboardHistory.DeleteItemKeepsCounter | macPaste/Models/ClipboardHistory.swift:60-69 | `deleteItem` keeps the counter equal to the number of image entries |
| ClipboardHistory.CountDownListed | macPaste/Models/ClipboardHistory.swift:73-80 | the per-id pass decrements once per file deletion it requests; every request names a listed id of an image entry, and every listed id whose first entry is an image gets one |
| ClipboardHistory.DeleteItems | macPaste/Models/ClipboardHistory.swift:72-85 | the kept entries are those without a listed id, in their original order; the last request is the save |
| ClipboardHistory.DeleteItemsRepeatedIdDesync | macPaste/Models/ClipboardHistory.swift:72-85 | listing one image's id twice empties a one-image history but leaves the counter at -1 |
| ClipboardHistory.DeleteItemsCorrected | macPaste/Models/ClipboardHistory.swift:72-85 | the same removal as `deleteItems`, counting each removed image once; the k-th request deletes the file of the k-th removed image, then the history is saved |
| ClipboardHistory.DeleteItemsCorrectedKeepsCounter | macPaste/Models/ClipboardHistory.swift:72-85 | the corrected removal keeps the counter equal to the image count, requests one deletion per removed image, and deletes the file of every image entry with a listed id |
| ClipboardHistory.DeleteItemsDistinctIdsAgree | macPaste/Models/ClipboardHistory.swift:72-85 | with unique entry ids and no id listed twice, `deleteItems` as written and the corrected removal give the same history, counter included |
| ClipboardHistory.CountDownDistinct | macPaste/Models/ClipboardHistory.swift:73-80 | for distinct listed ids and unique entry ids, the per-id pass decrements the counter by exactly the number of images among the entries it lists |
| ClipboardHistory.ListedSplit | macPaste/Models/ClipboardHistory.swift:81-83 | the images selected by a list of ids are those with its first id plus those selected by the rest, when the first id does not recur |
| ClipboardHistory.ImagesWithIdFound | macPaste/Models/ClipboardHistory.swift:74-77 | with unique entry ids, an id names one image exactly when its first-index lookup finds an image entry |
| ClipboardHistory.ClearHistory | macPaste/Models/ClipboardHistory.swift:88-98 | keeps exactly the pinned entries in their original order; the k-th request deletes the file of the k-th unpinned image, then the history is saved |
| ClipboardHistory.ClearHistoryKeepsCounter | macPaste/Models/ClipboardHistory.swift:88-98 | `clearHistory` keeps the counter equal to the number of image entries |
| ClipboardHistory.ClearHistoryKeepsPinnedInOrder | macPaste/Models/ClipboardHistory.swift:89-96 | an all-pinned list is kept unchanged, an all-unpinned one is emptied, clearing two parts keeps what clearing each keeps in the same order, and kept plus unpinned entries make up the history exactly |
| ClipboardHistory.TogglePin | macPaste/Models/ClipboardHistory.swift:106-111 | flips the pin of the first entry with the id and nothing else, then saves; an absent id changes and saves nothing |
| ClipboardHistory.TogglePinKeepsInvariants | macPaste/Models/ClipboardHistory.swift:106-111 | pinning keeps the counter, every id and fingerprint, and fingerprint distinctness |
| ClipboardHistory.TogglePinTwiceRestores | macPaste/Models/ClipboardHistory.swift:106-111 | toggling the pin of the same id twice gives back the original history |
| ClipboardHistory.FirstIndexOfSameIds | macPaste/Models/ClipboardHistory.swift:107 | the first-index lookup by id depends only on the ids, position by position |
| ClipboardHistory.PrefixKeepsDisk | macPaste/Models/ClipboardHistory.swift:49-54 | cutting the tail keeps ids unique and leaves no image entry without bytes with a file |
| ClipboardHistory.SavedMirrors | macPaste/Models/ClipboardHistory.swift:153-160 | a history with unique ids, saved after file deletions, is what the next load returns (dates at whole seconds) |
| ClipboardHistory.LoadedDiskMirrors | macPaste/Models/ClipboardHistory.swift:157-160 | a disk whose document has unique ids and whole-second dates holds the history a load returns; before the first save the empty history is held |
| ClipboardHistory.SavedDiskMirrorsLoad | macPaste/Models/ClipboardHistory.swift:153-160 | after saving entries with unique ids, the disk holds the history the next load returns |
| ClipboardHistory.UniqueIdsRemoveAt | macPaste/Models/ClipboardHistory.swift:66 | removing an entry keeps ids unique |
| ClipboardHistory.UniqueIdsCons | macPaste/Models/ClipboardHistory.swift:46 | inserting an entry with a fresh id at the front keeps ids unique |
| ClipboardHistory.ConsKeepsDisk | macPaste/Models/ClipboardHistory.swift:46 | inserting at the front an entry with a fresh id, and with bytes if it is an image, keeps ids unique and leaves no image entry without bytes with a file |
| ClipboardHistory.MakeRoomKeepsDisk | macPaste/Models/ClipboardHistory.swift:38-44 | the image-cap stage only removes entries and only requests file deletions, so ids stay unique, a fresh id stays fresh and no stale file appears |
| ClipboardHistory.AddItemKeepsDiskMirror | macPaste/Models/ClipboardHistory.swift:32-57 | if the disk held the history before `addItem` of an entry with a fresh id (and bytes, if an image), it holds the new history after its requests |
| ClipboardHistory.DeleteItemKeepsDiskMirror | macPaste/Models/ClipboardHistory.swift:60-69 | if the disk held the history before `deleteItem`, it holds the new history after its requests |
| ClipboardHistory.TogglePinKeepsDiskMirror | macPaste/Models/ClipboardHistory.swift:106-111 | if the disk held the history before `togglePin`, it holds the new history after its save |
| ClipboardHistory.FilterKeepsDisk | macPaste/Models/ClipboardHistory.swift:81-83 | keeping a filtered selection keeps ids unique and leaves no image entry without bytes with a file |
| ClipboardHistory.DeleteItemsKeepsDiskMirror | macPaste/Models/ClipboardHistory.swift:72-85 | if the disk held the history before `deleteItems`, it holds the new history after its requests, even when an id is listed twice |
| ClipboardHistory.ClearHistoryKeepsDiskMirror | macPaste/Models/ClipboardHistory.swift:88-98 | if the disk held the history before `clearHistory`, it holds the pinned entries after its requests |
| ClipboardHistory.Matching | macPaste/Models/ClipboardHistory.swift:123-126 | an entry matches when its preview or its type label contains the query; all images match or miss together |
| ClipboardHistory.Selected | macPaste/Models/ClipboardHistory.swift:115-126 | the selection holds only history entries, of the filtered type when one is given |
| ClipboardHistory.SearchItems | macPaste/Models/ClipboardHistory.swift:114-130 | pinned results come before unpinned ones; results are history entries of the filtered type |
| ClipboardHistory.SearchIsPermutationOfSelection | macPaste/Models/ClipboardHistory.swift:118-129 | the result holds each selected entry exactly as often as the selection |
| ClipboardHistory.SearchFinds | macPaste/Models/ClipboardHistory.swift:114-130 | an entry is found exactly when it is in the history, has the filtered type and, for a non-empty query, matches it |
| ClipboardHistory.SearchEmptyQueryIsPermutation | macPaste/Models/ClipboardHistory.swift:114-121 | with an empty query the result is a permutation of the entries of the filtered type, or of the whole history without a filter |
| ClipboardHistory.SearchIsStable | macPaste/Models/ClipboardHistory.swift:118-129 | pinned results, and unpinned results, keep their history order |
| ClipboardHistory.OfType | macPaste/Models/ClipboardHistory.swift:134 | the entries of one type all have that type |
| ClipboardHistory.OfTypeIsFilter | macPaste/Models/ClipboardHistory.swift:134 | the grouping's per-type list is the history filtered by type, in order |
| ClipboardHistory.GroupsFor | macPaste/Models/ClipboardHistory.swift:134-135 | every group is non-empty, of a listed type, and holds that type's entries |
| ClipboardHistory.GroupedItems | macPaste/Models/ClipboardHistory.swift:133-137 | groups are non-empty, hold exactly their type's entries in history order, and are sorted by raw value |
| ClipboardHistory.RankOrdersRawValues | macPaste/Models/ClipboardItem.swift:6-11 | file_path < image < plain_text < rich_text < url as strings |
| ClipboardHistory.GroupsForAscending | macPaste/Models/ClipboardHistory.swift:136 | groups built from ascending types come out ascending |
| ClipboardHistory.GroupedItemsIsPermutation | macPaste/Models/ClipboardHistory.swift:133-137 | the groups together hold every entry exactly as often as the history |
| ClipboardHistory.GroupsForFlatten | macPaste/Models/ClipboardHistory.swift:134-135 | flattening the groups gathers the per-type lists |
| ClipboardHistory.TypeFilterUnionCons | macPaste/Models/ClipboardHistory.swift:134 | an entry lands in exactly one per-type list among distinct types that include its own |
| ClipboardHistory.TypeFiltersCoverAll | macPaste/Models/ClipboardHistory.swift:134 | the five per-type lists together are a permutation of the history |
| ClipboardMonitor.Init | macPaste/Services/ClipboardMonitor.swift:21-25 | a new monitor takes the pasteboard count, polls at the idle period and is not running |
| ClipboardMonitor.Start | macPaste/Services/ClipboardMonitor.swift:30-46 | no change when already running; otherwise running, both counters set to the pasteboard's, quiet time restarted, active period, timer due now every 500 ms with 150 ms leeway |
| ClipboardMonitor.Stop | macPaste/Services/ClipboardMonitor.swift:53-57 | no timer and not running; counters, quiet time and period kept |
| ClipboardMonitor.TargetInterval | macPaste/Services/ClipboardMonitor.swift:78-79 | idle (2000 ms) exactly when quiet for at least 8000 ms, active (500 ms) otherwise |
| ClipboardMonitor.UpdateInterval | macPaste/Services/ClipboardMonitor.swift:75-84 | a no-op without a timer; otherwise ends on the target period, rescheduling one period from now with 250 ms leeway only when the period changes |
| ClipboardMonitor.HandleChange | macPaste/Services/ClipboardMonitor.swift:86-100 | an unclassified snapshot adds and announces nothing; a classified entry goes to `addItem` and is announced |
| ClipboardMonitor.Check | macPaste/Services/ClipboardMonitor.swift:61-73 | a change exactly when the counts differ: the count and quiet time are recorded before handling; otherwise only the period may change |
| ClipboardMonitor.CheckKeepsValid | macPaste/Services/ClipboardMonitor.swift:15-19 | the period stays 500 or 2000, the timer repeats at it, and the monitor runs exactly when it has a timer |
| ClipboardMonitor.StartStopIdempotent | macPaste/Services/ClipboardMonitor.swift:30-57 | starting twice is starting once; stopping twice is stopping once |
| ClipboardMonitor.StopStartRestarts | macPaste/Services/ClipboardMonitor.swift:30-57 | a restart after a stop starts afresh from the current pasteboard |
| ClipboardMonitor.StartThenCheckIsQuiet | macPaste/Services/ClipboardMonitor.swift:33-49 | the immediate check after a start, on an unchanged pasteboard, reports nothing and changes nothing |
| ClipboardMonitor.CountersAgreeKept | macPaste/Services/ClipboardMonitor.swift:34-35 | once started, the published counter equals the compared one through checks and stops |
| ClipboardMonitor.ChangeActivatesPolling | macPaste/Services/ClipboardMonitor.swift:64-68 | a change on a running monitor ends on the active period, rescheduling only when it was idle |
| ClipboardMonitor.QuietSlowsPolling | macPaste/Services/ClipboardMonitor.swift:70-72 | without a change a running monitor is idle exactly after 8000 ms of quiet |
| ClipboardMonitor.UnclassifiedChangePostsNothing | macPaste/Services/ClipboardMonitor.swift:86-89 | a change without image or non-empty text updates the count but adds and announces nothing |
| ClipboardMonitor.DuplicateStillPosted | macPaste/Services/ClipboardMonitor.swift:91-99 | a classified duplicate is announced although the history does not change and nothing is saved |
| ClipboardMonitor.CheckKeepsCounter | macPaste/Services/ClipboardMonitor.swift:61-100 | a check keeps the history's image counter equal to its image count |

## Left out

- User interface, view model, app lifecycle, `systemImage`, `copyToPasteboard` and `strippingHTMLTags`: presentation only, no engine logic.
- The unused `pinnedItems` property of the history and `hash(into:)` (hashing by id only): no effect on the engine.
- NSPasteboard access and the NSImage→TIFF→PNG conversion: replaced by the `Snapshot` record.
- SHA-256 internals: the digest is an arbitrary fixed function to 32 bytes.
- JSON encoding, the atomic write, directory creation and concrete I/O errors. Failures are the `Faults` choice: a failed or undecodable document, and per-entry image read/write failures. A failed file deletion is not modelled; the source ignores it.
- GCD timers and queues, `@Published`, and the main-queue hop of the notification. The timer is its schedule; firing is a call to `Check`. The race between the immediate check of `startMonitoring` and the first timer firing is not modelled.
- `localizedCaseInsensitiveContains`: locale-dependent, so search takes the substring test as a parameter `contains`.
- Characters are Unicode scalars, not grapheme clusters. `prefix(200)` and whitespace trimming are modelled per scalar, with the whitespace set listed in `IsWhitespace`.
- Swift's `Int` is unbounded here. Overflow of the change count or the image counter is not modelled.
- `TimeInterval` floats are integer milliseconds; `Date()` is the `now` parameter.
- ClipboardHistory.AddItem: the caps are read once per call from one `Settings` value, whereas the overflow loop re-reads `maxHistoryCount` on every pass; they differ only if the setting is written while an add is running.
- ClipboardHistory.SearchItems: the "matches the query" condition appears only in `SearchFinds`, because search needs the abstract `contains` test.
- ClipboardHistory.AddItemKeepsDiskMirror: requires the new entry's id to be fresh, as `UUID()` makes it in practice; an entry reusing an id is not covered.
- StorageService.Iso8601: cutting to the second is stated as a floor on milliseconds; the formatter's behaviour before 1970 is not modelled.

## Findings

| source | as written | input that shows it | evidently intended | confidence | as-written member | corrected member |
|---|---|---|---|---|---|---|
| macPaste/Models/ClipboardHistory.swift:72-85 | the per-id pass decrements `imageCount` once per listed id whose entry is an image, looking each id up again in the unchanged list | a history of one image with counter 1, and that image's id listed twice: the list ends empty with the counter at -1 | decrement once per image entry actually removed, keeping the counter equal to the number of images | not executed | ClipboardHistory.DeleteItemsRepeatedIdDesync | ClipboardHistory.DeleteItemsCorrectedKeepsCounter |

=== FILE: basics.dfy ===
/** Small shared vocabulary: an optional value (Swift's `T?`), bytes, and
    order-preserving filtering of sequences (Swift's `Array.filter`). */
module Basics {

  /** Swift's optional: `nil` or a wrapped value. */
  datatype Option<+T> = None | Some(value: T) {

    /** The wrapped value, or `default` when absent (Swift's `x ?? default`). */
    function GetOr(default: T): T {
      match this
      case Some(v) => v
      case None => default
    }

    /** This value when present, otherwise `other` (Swift's `x ?? y` on optionals). */
    function OrElse(other: Option<T>): Option<T> {
      match this
      case Some(_) => this
      case None => other
    }
  }

  newtype byte = x: int | 0 <= x < 256

  /** The elements of `s` satisfying `p`, in their original order. */
  function Filter<T>(p: T -> bool, s: seq<T>): (r: seq<T>)
    ensures |r| <= |s|
    ensures forall i :: 0 <= i < |r| ==> p(r[i])
  {
    if s == [] then []
    else if p(s[0]) then [s[0]] + Filter(p, s[1..]) else Filter(p, s[1..])
  }

  /** An element is kept by a filter exactly when it occurs in the sequence
      and satisfies the predicate. */
  lemma {:induction false} FilterMembers<T>(p: T -> bool, s: seq<T>, x: T)
    ensures x in Filter(p, s) <==> x in s && p(x)
  {
    if s != [] {
      FilterMembers(p, s[1..], x);
      assert s == [s[0]] + s[1..];
    }
  }

  /** `FilterMembers`, stated index-wise for both directions. */
  lemma FilterIndices<T>(p: T -> bool, s: seq<T>)
    ensures forall i :: 0 <= i < |Filter(p, s)| ==> Filter(p, s)[i] in s
    ensures forall i :: 0 <= i < |s| && p(s[i]) ==> s[i] in Filter(p, s)
  {
    forall i | 0 <= i < |Filter(p, s)|
      ensures Filter(p, s)[i] in s
    {
      FilterMembers(p, s, Filter(p, s)[i]);
    }
    forall i | 0 <= i < |s| && p(s[i])
      ensures s[i] in Filter(p, s)
    {
      FilterMembers(p, s, s[i]);
    }
  }

  /** A filter keeps each element at most as often as it occurs. */
  lemma {:induction false} FilterSubMultiset<T>(p: T -> bool, s: seq<T>)
    ensures multiset(Filter(p, s)) <= multiset(s)
  {
    if s != [] {
      FilterSubMultiset(p, s[1..]);
      assert s == [s[0]] + s[1..];
    }
  }

  /** Filtering a sequence with a known first element. */
  lemma FilterCons<T>(p: T -> bool, x: T, s: seq<T>)
    ensures Filter(p, [x] + s) == if p(x) then [x] + Filter(p, s) else Filter(p, s)
  {
    assert ([x] + s)[1..] == s;
  }

  /** Filtering distributes over concatenation. */
  lemma {:induction false} FilterConcat<T>(p: T -> bool, a: seq<T>, b: seq<T>)
    ensures Filter(p, a + b) == Filter(p, a) + Filter(p, b)
  {
    if a == [] {
      assert a + b == b;
    } else {
      assert (a + b)[1..] == a[1..] + b;
      FilterConcat(p, a[1..], b);
    }
  }

  /** Filtering with `p` and with its complement `q` splits `s` into two
      parts that together hold every element exactly as often as `s` does. */
  lemma {:induction false} FilterComplement<T>(p: T -> bool, q: T -> bool, s: seq<T>)
    requires forall x :: q(x) == !p(x)
    ensures multiset(Filter(p, s)) + multiset(Filter(q, s)) == multiset(s)
  {
    if s != [] {
      FilterComplement(p, q, s[1..]);
      assert s == [s[0]] + s[1..];
    }
  }

  /** A filter is the identity on a sequence whose elements all satisfy `p`. */
  lemma {:induction false} FilterAll<T>(p: T -> bool, s: seq<T>)
    requires forall i :: 0 <= i < |s| ==> p(s[i])
    ensures Filter(p, s) == s
  {
    if s != [] {
      FilterAll(p, s[1..]);
    }
  }

  /** A filter keeps nothing of a sequence none of whose elements satisfy `p`. */
  lemma {:induction false} FilterNone<T>(p: T -> bool, s: seq<T>)
    requires forall i :: 0 <= i < |s| ==> !p(s[i])
    ensures Filter(p, s) == []
  {
    if s != [] {
      FilterNone(p, s[1..]);
    }
  }

  /** How many elements of `s` satisfy `p`. */
  function Count<T>(p: T -> bool, s: seq<T>): nat {
    |Filter(p, s)|
  }

  /** Counting distributes over concatenation. */
  lemma CountConcat<T>(p: T -> bool, a: seq<T>, b: seq<T>)
    ensures Count(p, a + b) == Count(p, a) + Count(p, b)
  {
    FilterConcat(p, a, b);
  }

  /** Splitting a sequence by `q` and its complement `nq` splits the count of
      any predicate `p` accordingly. */
  lemma {:induction false} CountSplit<T>(p: T -> bool, q: T -> bool, nq: T -> bool, s: seq<T>)
    requires forall x :: nq(x) == !q(x)
    ensures Count(p, Filter(q, s)) + Count(p, Filter(nq, s)) == Count(p, s)
  {
    if s != [] {
      CountSplit(p, q, nq, s[1..]);
      assert s == [s[0]] + s[1..];
      FilterCons(q, s[0], s[1..]);
      FilterCons(nq, s[0], s[1..]);
      FilterCons(p, s[0], s[1..]);
      if q(s[0]) {
        FilterCons(p, s[0], Filter(q, s[1..]));
      } else {
        FilterCons(p, s[0], Filter(nq, s[1..]));
      }
    }
  }

  /** Filtering by `p` then by `q` is filtering by `q` then by `p`. */
  lemma {:induction false} FilterCommute<T>(p: T -> bool, q: T -> bool, s: seq<T>)
    ensures Filter(p, Filter(q, s)) == Filter(q, Filter(p, s))
  {
    if s != [] {
      FilterCommute(p, q, s[1..]);
      assert s == [s[0]] + s[1..];
      FilterCons(p, s[0], s[1..]);
      FilterCons(q, s[0], s[1..]);
      if q(s[0]) {
        FilterCons(p, s[0], Filter(q, s[1..]));
      }
      if p(s[0]) {
        FilterCons(q, s[0], Filter(p, s[1..]));
      }
    }
  }

  /** Replacing an element by one that `p` judges alike keeps the count. */
  lemma CountUpdate<T>(p: T -> bool, s: seq<T>, k: nat, y: T)
    requires k < |s| && p(y) == p(s[k])
    ensures Count(p, s[k := y]) == Count(p, s)
  {
    var t := s[k := y];
    assert s == s[..k] + [s[k]] + s[k + 1..];
    assert t == s[..k] + [y] + s[k + 1..];
    FilterConcat(p, s[..k] + [s[k]], s[k + 1..]);
    FilterConcat(p, s[..k], [s[k]]);
    FilterConcat(p, s[..k] + [y], s[k + 1..]);
    FilterConcat(p, s[..k], [y]);
    FilterCons(p, s[k], []);
    FilterCons(p, y, []);
  }

  /** `s` with the element at index `i` removed (Swift's `remove(at:)`). */
  function RemoveAt<T>(s: seq<T>, i: nat): (r: seq<T>)
    requires i < |s|
    ensures |r| == |s| - 1
    ensures forall j :: 0 <= j < i ==> r[j] == s[j]
    ensures forall j :: i <= j < |r| ==> r[j] == s[j + 1]
  {
    s[..i] + s[i + 1..]
  }

  /** Removing one element takes exactly that element out of the multiset. */
  lemma RemoveAtMultiset<T>(s: seq<T>, i: nat)
    requires i < |s|
    ensures multiset(RemoveAt(s, i)) == multiset(s) - multiset{s[i]}
  {
    assert s == s[..i] + [s[i]] + s[i + 1..];
  }

  /** Counting after a removal: one less exactly when the removed element counted. */
  lemma RemoveAtCount<T>(p: T -> bool, s: seq<T>, i: nat)
    requires i < |s|
    ensures Count(p, RemoveAt(s, i)) == Count(p, s) - (if p(s[i]) then 1 else 0)
  {
    assert s == s[..i] + [s[i]] + s[i + 1..];
    FilterConcat(p, s[..i] + [s[i]], s[i + 1..]);
    FilterConcat(p, s[..i], [s[i]]);
    FilterConcat(p, s[..i], s[i + 1..]);
  }
}

=== FILE: clipboard_history.dfy ===
/** The clipboard history: a newest-first sequence of entries with a running
    count of image entries, a global length cap and a cap on images. Every
    operation is a pure transition that returns the new history together
    with the storage requests it issues, in order. The two caps are read
    from the settings on every call, so each operation takes the settings
    as they are at that moment. */
module ClipboardHistory {
  import opened Basics
  import opened Foundation
  import opened ClipboardItem
  import StorageService

  type Request = StorageService.Request

  const DefaultMaxHistoryCount: int := 500
  const DefaultMaxImageCount: int := 50

  /** The integers stored under `maxHistoryCount` and `maxImageCount` in the
      user defaults (0 when unset). */
  datatype Settings = Settings(maxHistoryCount: int, maxImageCount: int)

  /** The effective global cap: the stored value when positive, else 500. */
  function MaxHistoryCount(s: Settings): (n: int)
    ensures n > 0
    ensures s.maxHistoryCount > 0 ==> n == s.maxHistoryCount
    ensures s.maxHistoryCount <= 0 ==> n == DefaultMaxHistoryCount
  {
    if s.maxHistoryCount > 0 then s.maxHistoryCount else DefaultMaxHistoryCount
  }

  /** The effective image cap: the stored value when positive, else 50. */
  function MaxImageCount(s: Settings): (n: int)
    ensures n > 0
    ensures s.maxImageCount > 0 ==> n == s.maxImageCount
    ensures s.maxImageCount <= 0 ==> n == DefaultMaxImageCount
  {
    if s.maxImageCount > 0 then s.maxImageCount else DefaultMaxImageCount
  }

  /** The entries, newest first, and the running image counter. */
  datatype History = History(items: seq<Item>, imageCount: int)

  /** The outcome of an operation: the new history and the storage requests
      it made, in order. */
  datatype Step = Step(history: History, requests: seq<Request>)

  function CountImages(items: seq<Item>): nat {
    Count(IsImage, items)
  }

  /** The running counter equals the number of image entries. */
  predicate CounterMirrors(h: History) {
    h.imageCount == CountImages(h.items)
  }

  /** Two entries have the same fingerprint when their `contentHash` strings
      are equal as Swift compares strings, up to canonical equivalence. */
  predicate SameFingerprint(a: Item, b: Item) {
    StringEquals(ContentHash(a), ContentHash(b))
  }

  /** No two entries have the same content fingerprint. */
  predicate DistinctHashes(items: seq<Item>) {
    forall i, j :: 0 <= i < j < |items| ==> !SameFingerprint(items[i], items[j])
  }

  /** `loadHistory` of the history: the stored entries, with the counter set
      by counting their images. */
  function LoadHistory(disk: StorageService.Disk, faults: StorageService.Faults): (h: History)
    ensures h.items == StorageService.LoadHistory(disk, faults)
    ensures CounterMirrors(h)
    ensures disk.doc.None? || faults.docFails ==> h == History([], 0)
    ensures |h.items| == (if disk.doc.None? || faults.docFails then 0 else |disk.doc.value|)
  {
    var items := StorageService.LoadHistory(disk, faults);
    History(items, CountImages(items))
  }

  /** `isDuplicate`: some entry already has the same fingerprint, compared
      as Swift compares strings, so a canonically equivalent spelling of a
      stored text is a duplicate too. An entry
      already in the history, under any id, date or pin, is one, and nothing
      is a duplicate of an empty history. */
  function IsDuplicate(items: seq<Item>, x: Item): (r: bool)
    ensures (exists i :: 0 <= i < |items| && items[i].(id := x.id, createdAt := x.createdAt, isPinned := x.isPinned) == x) ==> r
    ensures r ==> items != []
  {
    exists i :: 0 <= i < |items| && SameFingerprint(items[i], x)
  }

  /** `firstIndex(where: { $0.id == id })`. */
  function FirstIndexOf(items: seq<Item>, id: Uuid): (r: Option<nat>)
    ensures r.Some? ==> r.value < |items| && items[r.value].id == id
    ensures r.Some? ==> forall j :: 0 <= j < r.value ==> items[j].id != id
    ensures r.None? ==> forall j :: 0 <= j < |items| ==> items[j].id != id
  {
    if items == [] then None
    else if items[0].id == id then Some(0)
    else
      match FirstIndexOf(items[1..], id)
      case Some(k) => Some(k + 1)
      case None => None
  }

  /** `lastIndex(where: { $0.contentType == .image })`. */
  function LastImageIndex(items: seq<Item>): (r: Option<nat>)
    ensures r.Some? ==> r.value < |items| && IsImage(items[r.value])
    ensures r.Some? ==> forall j :: r.value < j < |items| ==> !IsImage(items[j])
    ensures r.None? ==> forall j :: 0 <= j < |items| ==> !IsImage(items[j])
  {
    if items == [] then None
    else if IsImage(items[|items| - 1]) then Some(|items| - 1)
    else LastImageIndex(items[..|items| - 1])
  }

  /** A deletion request for each image entry, in order. */
  function ImageDeletions(items: seq<Item>): (r: seq<Request>)
    ensures |r| == CountImages(items)
    ensures forall k :: 0 <= k < |r| ==> r[k] == StorageService.CallDeleteImage(Filter(IsImage, items)[k].id)
    ensures forall q :: q in r ==> q.CallDeleteImage?
  {
    if items == [] then []
    else
      assert items == [items[0]] + items[1..];
      FilterCons(IsImage, items[0], items[1..]);
      (if IsImage(items[0]) then [StorageService.CallDeleteImage(items[0].id)] else [])
      + ImageDeletions(items[1..])
  }

  // ---------------------------------------------------------------------
  // addItem
  // ---------------------------------------------------------------------

  /** The state after `removeOldestImage`: the last image entry in the
      sequence, pinned or not, is removed, the counter decremented and its
      image file deleted; nothing happens when there is no image. */
  datatype Room = Room(items: seq<Item>, imageCount: int, requests: seq<Request>)

  function RemoveOldestImage(items: seq<Item>, imageCount: int): (r: Room)
    ensures LastImageIndex(items).None? ==> r == Room(items, imageCount, [])
    ensures LastImageIndex(items).Some? ==>
              var k := LastImageIndex(items).value;
              && r.items == RemoveAt(items, k)
              && multiset(r.items) == multiset(items) - multiset{items[k]}
              && CountImages(r.items) == CountImages(items) - 1
              && r.imageCount == imageCount - 1
              && r.requests == [StorageService.CallDeleteImage(items[k].id)]
  {
    match LastImageIndex(items)
    case None => Room(items, imageCount, [])
    case Some(k) =>
      RemoveAtMultiset(items, k);
      RemoveAtCount(IsImage, items, k);
      Room(RemoveAt(items, k), imageCount - 1, [StorageService.CallDeleteImage(items[k].id)])
  }

  /** The image-cap stage of `addItem`: an incoming image bumps the counter,
      and when the counter then exceeds the image cap the oldest image goes. */
  function MakeRoom(h: History, x: Item, settings: Settings): (r: Room)
    ensures (if IsImage(x) then 1 else 0) + CountImages(r.items) - r.imageCount
            == CountImages(h.items) - h.imageCount
    ensures |r.requests| <= 1
    ensures |r.requests| == 1 <==>
              IsImage(x) && h.imageCount + 1 > MaxImageCount(settings)
              && exists i :: 0 <= i < |h.items| && IsImage(h.items[i])
    ensures r.requests == [] ==> r.items == h.items
    ensures r.requests != [] ==>
              exists k :: 0 <= k < |h.items| && IsImage(h.items[k])
                && (forall j :: k < j < |h.items| ==> !IsImage(h.items[j]))
                && r.items == RemoveAt(h.items, k)
                && r.requests == [StorageService.CallDeleteImage(h.items[k].id)]
  {
    if IsImage(x) then
      if h.imageCount + 1 > MaxImageCount(settings) then RemoveOldestImage(h.items, h.imageCount + 1)
      else Room(h.items, h.imageCount + 1, [])
    else Room(h.items, h.imageCount, [])
  }

  /** The overflow loop of `addItem`: while the sequence is longer than the
      cap, drop its last entry and decrement the counter if it was an image.
      Pins are not consulted and no image file is deleted. */
  function TrimOverflow(items: seq<Item>, imageCount: int, max: nat): (r: (seq<Item>, int))
    ensures |items| <= max ==> r == (items, imageCount)
    ensures |items| > max ==>
              r.0 == items[..max] && r.1 == imageCount - CountImages(items[max..])
    decreases |items|
  {
    if |items| > max then
      var n := |items|;
      var last := items[n - 1];
      assert items[max..] == items[max..n - 1] + [last];
      CountConcat(IsImage, items[max..n - 1], [last]);
      assert items[..n - 1][max..] == items[max..n - 1];
      TrimOverflow(items[..n - 1], if IsImage(last) then imageCount - 1 else imageCount, max)
    else (items, imageCount)
  }

  /** `addItem`: a duplicate (same fingerprint as any entry) changes nothing
      and saves nothing. Otherwise the image cap is enforced, the entry goes
      to the front, the tail is cut to the global cap and the history is
      saved. */
  function AddItem(h: History, x: Item, settings: Settings): (s: Step)
    ensures IsDuplicate(h.items, x) ==> s == Step(h, [])
    ensures !IsDuplicate(h.items, x) ==>
              && s.history.items != [] && s.history.items[0] == x
              && |s.history.items| <= MaxHistoryCount(settings)
              && s.requests != []
              && s.requests[|s.requests| - 1] == StorageService.CallSaveHistory(s.history.items)
  {
    if IsDuplicate(h.items, x) then Step(h, [])
    else
      var room := MakeRoom(h, x, settings);
      var trimmed := TrimOverflow([x] + room.items, room.imageCount, MaxHistoryCount(settings));
      Step(History(trimmed.0, trimmed.1), room.requests + [StorageService.CallSaveHistory(trimmed.0)])
  }

  /** Cutting a sequence at `m` splits its image count. */
  lemma CountImagesSplit(items: seq<Item>, m: nat)
    requires m <= |items|
    ensures CountImages(items[..m]) + CountImages(items[m..]) == CountImages(items)
  {
    assert items == items[..m] + items[m..];
    CountConcat(IsImage, items[..m], items[m..]);
  }

  /** `addItem` keeps the counter equal to the number of image entries. */
  lemma AddItemKeepsCounter(h: History, x: Item, settings: Settings)
    requires CounterMirrors(h)
    ensures CounterMirrors(AddItem(h, x, settings).history)
  {
    if !IsDuplicate(h.items, x) {
      var room := MakeRoom(h, x, settings);
      var full := [x] + room.items;
      CountConcat(IsImage, [x], room.items);
      assert room.imageCount == CountImages(full);
      if |full| > MaxHistoryCount(settings) {
        CountImagesSplit(full, MaxHistoryCount(settings));
      }
    }
  }

  lemma DistinctHashesRemoveAt(items: seq<Item>, k: nat)
    requires k < |items| && DistinctHashes(items)
    ensures DistinctHashes(RemoveAt(items, k))
  {
    var r := RemoveAt(items, k);
    forall i, j | 0 <= i < j < |r|
      ensures !SameFingerprint(r[i], r[j])
    {
      var i' := if i < k then i else i + 1;
      var j' := if j < k then j else j + 1;
      assert r[i] == items[i'] && r[j] == items[j'];
    }
  }

  lemma DistinctHashesPrefix(items: seq<Item>, m: nat)
    requires m <= |items| && DistinctHashes(items)
    ensures DistinctHashes(items[..m])
  {
  }

  lemma DistinctHashesCons(x: Item, items: seq<Item>)
    requires DistinctHashes(items) && !IsDuplicate(items, x)
    ensures DistinctHashes([x] + items)
  {
    var full := [x] + items;
    forall i, j | 0 <= i < j < |full|
      ensures !SameFingerprint(full[i], full[j])
    {
      assert full[j] == items[j - 1];
      if i > 0 {
        assert full[i] == items[i - 1];
      }
    }
  }

  /** `addItem` keeps the fingerprints of the entries pairwise distinct. */
  lemma AddItemKeepsHashesDistinct(h: History, x: Item, settings: Settings)
    requires DistinctHashes(h.items)
    ensures DistinctHashes(AddItem(h, x, settings).history.items)
  {
    if !IsDuplicate(h.items, x) {
      var room := MakeRoom(h, x, settings);
      if room.items != h.items {
        var k := LastImageIndex(h.items).value;
        assert room.items == RemoveAt(h.items, k);
        DistinctHashesRemoveAt(h.items, k);
      }
      var full := [x] + room.items;
      DistinctHashesCons(x, room.items);
      if |full| > MaxHistoryCount(settings) {
        DistinctHashesPrefix(full, MaxHistoryCount(settings));
      }
    }
  }

  /** Copying the same content again is ignored: after an entry is added,
      any entry with the same fingerprint (a new capture of the same text or
      image, under a fresh id and date, or a canonically equivalent
      spelling of the text) is a duplicate, so adding it
      changes nothing and saves nothing. */
  lemma AddItemSameContentIsNoop(h: History, x: Item, y: Item, settings: Settings)
    requires !IsDuplicate(h.items, x)
    requires SameFingerprint(y, x)
    ensures var after := AddItem(h, x, settings).history;
            AddItem(after, y, settings) == Step(after, [])
  {
    var after := AddItem(h, x, settings).history;
    assert after.items[0] == x;
    assert IsDuplicate(after.items, y);
  }

  /** A plain text that Swift's `==` equates with a stored one (the same
      letters in another Unicode normal form, say) is a duplicate, and
      adding it changes nothing and saves nothing. */
  lemma EquivalentTextIsDuplicate(h: History, k: nat, y: Item, settings: Settings)
    requires k < |h.items| && h.items[k].contentType == PlainText && y.contentType == PlainText
    requires h.items[k].textContent.Some? && y.textContent.Some?
    requires StringEquals(h.items[k].textContent.value, y.textContent.value)
    ensures IsDuplicate(h.items, y)
    ensures AddItem(h, y, settings) == Step(h, [])
  {
    assert SameFingerprint(h.items[k], y);
  }

  /** When an incoming image exceeds the image cap, the removed entry is the
      last image of the sequence, whether pinned or not, its file deletion
      is requested first, and the result is the new entry followed by the
      old sequence without that image, cut to the global cap. Together with
      `AddItemEvictsFromTail` this leaves out only an image added over the
      cap to a history holding no image, which cannot happen while the
      counter equals the number of images (`CounterMirrors`). */
  lemma AddItemEvictsOldestImage(h: History, x: Item, settings: Settings)
    requires !IsDuplicate(h.items, x) && IsImage(x)
    requires h.imageCount + 1 > MaxImageCount(settings)
    requires LastImageIndex(h.items).Some?
    ensures var k := LastImageIndex(h.items).value;
            var s := AddItem(h, x, settings);
            && (forall j :: k < j < |h.items| ==> !IsImage(h.items[j]))
            && s.requests == [StorageService.CallDeleteImage(h.items[k].id), StorageService.CallSaveHistory(s.history.items)]
            && s.history.items == ([x] + RemoveAt(h.items, k))[..Min(|h.items|, MaxHistoryCount(settings))]
  {
  }

  function Min(a: int, b: int): int {
    if a <= b then a else b
  }

  /** Below the image cap, and for every non-image entry, the new entry goes
      to the front and entries fall off the tail only, pinned or not, with
      the single request being the save: an image pushed off the tail keeps
      its file. */
  lemma AddItemEvictsFromTail(h: History, x: Item, settings: Settings)
    requires !IsDuplicate(h.items, x)
    requires !IsImage(x) || h.imageCount + 1 <= MaxImageCount(settings)
    ensures var s := AddItem(h, x, settings);
            && s.history.items == ([x] + h.items)[..Min(|h.items| + 1, MaxHistoryCount(settings))]
            && s.requests == [StorageService.CallSaveHistory(s.history.items)]
  {
  }

  /** Eviction by the global cap leaves the evicted image's file on disk:
      with a full history whose last entry is an image, adding a text entry
      drops that image from the saved history but not its file. */
  lemma OverflowEvictionKeepsImageFile(h: History, x: Item, settings: Settings,
                                       disk: StorageService.Disk)
    requires !IsDuplicate(h.items, x) && !IsImage(x)
    requires |h.items| == MaxHistoryCount(settings)
    requires IsImage(h.items[|h.items| - 1])
    requires StorageService.ImageFileName(h.items[|h.items| - 1].id) in disk.images
    ensures var s := AddItem(h, x, settings);
            && s.history.items == [x] + h.items[..|h.items| - 1]
            && StorageService.ImageFileName(h.items[|h.items| - 1].id)
                 in StorageService.Apply(disk, s.requests, StorageService.NoFaults).images
  {
    var s := AddItem(h, x, settings);
    AddItemEvictsFromTail(h, x, settings);
    assert ([x] + h.items)[..|h.items|] == [x] + h.items[..|h.items| - 1];
    var saved := StorageService.SaveHistory(disk, s.history.items, StorageService.NoFaults);
    assert StorageService.Apply(disk, s.requests, StorageService.NoFaults)
           == StorageService.Apply(saved, [], StorageService.NoFaults);
  }

  /** A history within the image cap stays within it after `addItem`. */
  lemma AddItemKeepsImageCap(h: History, x: Item, settings: Settings)
    requires CounterMirrors(h)
    requires CountImages(h.items) <= MaxImageCount(settings)
    ensures CountImages(AddItem(h, x, settings).history.items) <= MaxImageCount(settings)
  {
    if !IsDuplicate(h.items, x) {
      var room := MakeRoom(h, x, settings);
      var full := [x] + room.items;
      CountConcat(IsImage, [x], room.items);
      FilterCons(IsImage, x, []);
      if IsImage(x) && h.imageCount + 1 > MaxImageCount(settings) && LastImageIndex(h.items).None? {
        FilterNone(IsImage, h.items);
      }
      assert CountImages(full) <= MaxImageCount(settings);
      if |full| > MaxHistoryCount(settings) {
        CountImagesSplit(full, MaxHistoryCount(settings));
      }
    }
  }

  /** The caps are re-read on every call and `addItem` removes at most one
      image: after the image cap is lowered below the number of images held,
      adding an image (with room under the global cap) leaves the number of
      images unchanged, still above the cap. */
  lemma LoweredImageCapNotEnforced(h: History, x: Item, settings: Settings)
    requires CounterMirrors(h)
    requires CountImages(h.items) > MaxImageCount(settings)
    requires !IsDuplicate(h.items, x) && IsImage(x)
    requires |h.items| < MaxHistoryCount(settings)
    ensures CountImages(AddItem(h, x, settings).history.items) == CountImages(h.items)
    ensures CountImages(AddItem(h, x, settings).history.items) > MaxImageCount(settings)
  {
    var room := MakeRoom(h, x, settings);
    if LastImageIndex(h.items).None? {
      FilterNone(IsImage, h.items);
    }
    CountConcat(IsImage, [x], room.items);
  }

  // ---------------------------------------------------------------------
  // Deletion, clearing, pinning
  // ---------------------------------------------------------------------

  /** `deleteItem`: removes the first entry with the id, keeping the order
      of the rest; for an image, decrements the counter and deletes its
      file; then saves. An absent id changes nothing and saves nothing. */
  function DeleteItem(h: History, id: Uuid): (s: Step)
    ensures (forall j :: 0 <= j < |h.items| ==> h.items[j].id != id) ==> s == Step(h, [])
    ensures (exists j :: 0 <= j < |h.items| && h.items[j].id == id) ==>
              exists k :: 0 <= k < |h.items| && h.items[k].id == id
                && (forall j :: 0 <= j < k ==> h.items[j].id != id)
                && s.history.items == h.items[..k] + h.items[k + 1..]
                && s.requests == (if IsImage(h.items[k]) then [StorageService.CallDeleteImage(id)] else [])
                                 + [StorageService.CallSaveHistory(s.history.items)]
  {
    match FirstIndexOf(h.items, id)
    case None => Step(h, [])
    case Some(k) =>
      var removed := h.items[k];
      var items := RemoveAt(h.items, k);
      if IsImage(removed) then
        Step(History(items, h.imageCount - 1),
             [StorageService.CallDeleteImage(removed.id), StorageService.CallSaveHistory(items)])
      else
        Step(History(items, h.imageCount), [StorageService.CallSaveHistory(items)])
  }

  /** `deleteItem` keeps the counter equal to the number of image entries. */
  lemma DeleteItemKeepsCounter(h: History, id: Uuid)
    requires CounterMirrors(h)
    ensures CounterMirrors(DeleteItem(h, id).history)
  {
    match FirstIndexOf(h.items, id)
    case None =>
    case Some(k) => RemoveAtCount(IsImage, h.items, k);
  }

  /** The entries whose id is listed. */
  function Listed(ids: seq<Uuid>): Item -> bool {
    (x: Item) => x.id in ids
  }

  /** The entries whose id is not listed. */
  function Unlisted(ids: seq<Uuid>): Item -> bool {
    (x: Item) => x.id !in ids
  }

  /** The per-id pass of `deleteItems`: for each listed id, in order, the
      first entry with that id in the unchanged sequence is looked up, and
      if it is an image the counter is decremented once and its file
      deletion requested. A repeated id is looked up again. */
  function CountDownListed(items: seq<Item>, ids: seq<Uuid>): (r: (int, seq<Request>))
    ensures r.0 == |r.1|
    ensures forall q :: q in r.1 ==> q.CallDeleteImage?
    ensures forall q :: q in r.1 ==>
              q.id in ids && exists i :: 0 <= i < |items| && items[i].id == q.id && IsImage(items[i])
    ensures forall j :: 0 <= j < |ids| && FirstIndexOf(items, ids[j]).Some?
                        && IsImage(items[FirstIndexOf(items, ids[j]).value])
                        ==> StorageService.CallDeleteImage(ids[j]) in r.1
  {
    if ids == [] then (0, [])
    else
      var rest := CountDownListed(items, ids[1..]);
      match FirstIndexOf(items, ids[0])
      case Some(k) =>
        if IsImage(items[k]) then (rest.0 + 1, [StorageService.CallDeleteImage(items[k].id)] + rest.1)
        else rest
      case None => rest
  }

  /** `deleteItems` as written: the per-id pass, then every entry whose id
      is listed is removed, then the history is saved. */
  function DeleteItems(h: History, ids: seq<Uuid>): (s: Step)
    ensures s.history.items == Filter(Unlisted(ids), h.items)
    ensures forall i :: 0 <= i < |s.history.items| ==> s.history.items[i].id !in ids
    ensures forall i :: 0 <= i < |h.items| && h.items[i].id !in ids ==> h.items[i] in s.history.items
    ensures |s.requests| >= 1 && s.requests[|s.requests| - 1] == StorageService.CallSaveHistory(s.history.items)
  {
    var pass := CountDownListed(h.items, ids);
    var kept := Filter(Unlisted(ids), h.items);
    FilterIndices(Unlisted(ids), h.items);
    Step(History(kept, h.imageCount - pass.0), pass.1 + [StorageService.CallSaveHistory(kept)])
  }

  /** One image entry, used to exhibit the counter going wrong. */
  function SampleImage(): Item {
    Item(seq(16, _ => 0 as byte), Image, None, None, Some([1 as byte]), None, None, 0, false)
  }

  /** Listing the same id twice makes `deleteItems` decrement the counter
      twice for the one entry it removes: a history holding one image and a
      counter of 1 ends empty with a counter of -1. */
  lemma DeleteItemsRepeatedIdDesync()
    ensures var x := SampleImage();
            var h := History([x], 1);
            var s := DeleteItems(h, [x.id, x.id]);
            && CounterMirrors(h)
            && s.history.items == []
            && s.history.imageCount == -1
            && !CounterMirrors(s.history)
  {
    var x := SampleImage();
    var h := History([x], 1);
    var ids := [x.id, x.id];
    FilterCons(IsImage, x, []);
    FilterCons(Unlisted(ids), x, []);
    assert FirstIndexOf(h.items, x.id) == Some(0);
    assert ids[1..] == [x.id] && ids[1..][1..] == [];
    assert CountDownListed(h.items, []) == (0, []);
    assert CountDownListed(h.items, [x.id]).0 == 1;
    assert CountDownListed(h.items, ids).0 == 2;
  }

  /** `deleteItems` with the counter decremented once per image entry
      actually removed, and one file deletion per removed image. */
  function DeleteItemsCorrected(h: History, ids: seq<Uuid>): (s: Step)
    ensures s.history.items == Filter(Unlisted(ids), h.items)
    ensures forall i :: 0 <= i < |s.history.items| ==> s.history.items[i].id !in ids
    ensures forall i :: 0 <= i < |h.items| && h.items[i].id !in ids ==> h.items[i] in s.history.items
    ensures |s.requests| == CountImages(Filter(Listed(ids), h.items)) + 1
    ensures s.requests[|s.requests| - 1] == StorageService.CallSaveHistory(s.history.items)
    ensures forall k :: 0 <= k < |s.requests| - 1 ==>
              s.requests[k] == StorageService.CallDeleteImage(Filter(IsImage, Filter(Listed(ids), h.items))[k].id)
  {
    var removed := Filter(Listed(ids), h.items);
    var kept := Filter(Unlisted(ids), h.items);
    FilterIndices(Unlisted(ids), h.items);
    Step(History(kept, h.imageCount - CountImages(removed)),
         ImageDeletions(removed) + [StorageService.CallSaveHistory(kept)])
  }

  /** The corrected `deleteItems` keeps the counter equal to the number of
      image entries whatever the list holds, and requests one file deletion
      per image entry removed. */
  lemma DeleteItemsCorrectedKeepsCounter(h: History, ids: seq<Uuid>)
    requires CounterMirrors(h)
    ensures CounterMirrors(DeleteItemsCorrected(h, ids).history)
    ensures |DeleteItemsCorrected(h, ids).requests| == CountImages(h.items) - CountImages(DeleteItemsCorrected(h, ids).history.items) + 1
    ensures forall i :: 0 <= i < |h.items| && h.items[i].id in ids && IsImage(h.items[i]) ==>
              StorageService.CallDeleteImage(h.items[i].id) in DeleteItemsCorrected(h, ids).requests
  {
    CountSplit(IsImage, Listed(ids), Unlisted(ids), h.items);
    var s := DeleteItemsCorrected(h, ids);
    var removed := Filter(Listed(ids), h.items);
    var images := Filter(IsImage, removed);
    FilterIndices(Listed(ids), h.items);
    forall i | 0 <= i < |h.items| && h.items[i].id in ids && IsImage(h.items[i])
      ensures StorageService.CallDeleteImage(h.items[i].id) in s.requests
    {
      assert h.items[i] in removed;
      FilterMembers(IsImage, removed, h.items[i]);
      var k :| 0 <= k < |images| && images[k] == h.items[i];
      assert s.requests[k] == StorageService.CallDeleteImage(h.items[i].id);
    }
  }

  /** The as-written `deleteItems` is right whenever no id is listed twice
      (and no two entries share an id): its history is then exactly the
      corrected one. */
  lemma DeleteItemsDistinctIdsAgree(h: History, ids: seq<Uuid>)
    requires StorageService.UniqueIds(h.items)
    requires forall i, j :: 0 <= i < j < |ids| ==> ids[i] != ids[j]
    ensures DeleteItems(h, ids).history == DeleteItemsCorrected(h, ids).history
  {
    CountDownDistinct(h.items, ids);
  }

  /** With distinct ids, the per-id pass counts each listed image once. */
  lemma {:induction false} CountDownDistinct(items: seq<Item>, ids: seq<Uuid>)
    requires StorageService.UniqueIds(items)
    requires forall i, j :: 0 <= i < j < |ids| ==> ids[i] != ids[j]
    ensures CountDownListed(items, ids).0 == CountImages(Filter(Listed(ids), items))
    decreases |ids|
  {
    if ids == [] {
      FilterNone(Listed(ids), items);
    } else {
      var a, rest := ids[0], ids[1..];
      assert ids == [a] + rest;
      assert a !in rest;
      CountDownDistinct(items, rest);
      ListedSplit(items, a, rest);
      ImagesWithIdFound(items, a);
    }
  }

  /** The image entries with a given id. */
  function ImageWithId(a: Uuid): Item -> bool {
    (x: Item) => IsImage(x) && x.id == a
  }

  /** Listing one more id adds the images with that id to the count. */
  lemma {:induction false} ListedSplit(items: seq<Item>, a: Uuid, rest: seq<Uuid>)
    requires a !in rest
    ensures CountImages(Filter(Listed([a] + rest), items))
            == Count(ImageWithId(a), items) + CountImages(Filter(Listed(rest), items))
    decreases |items|
  {
    if items != [] {
      var y, t := items[0], items[1..];
      assert items == [y] + t;
      ListedSplit(t, a, rest);
      FilterCons(Listed([a] + rest), y, t);
      FilterCons(Listed(rest), y, t);
      FilterCons(ImageWithId(a), y, t);
      if Listed([a] + rest)(y) {
        FilterCons(IsImage, y, Filter(Listed([a] + rest), t));
      }
      if Listed(rest)(y) {
        FilterCons(IsImage, y, Filter(Listed(rest), t));
      }
    }
  }

  /** In a list of unique ids, the images with id `a` number one when the
      first entry with that id is an image, and none otherwise. */
  lemma {:induction false} ImagesWithIdFound(items: seq<Item>, a: Uuid)
    requires StorageService.UniqueIds(items)
    ensures Count(ImageWithId(a), items)
            == match FirstIndexOf(items, a)
               case Some(k) => (if IsImage(items[k]) then 1 else 0)
               case None => 0
    decreases |items|
  {
    if items != [] {
      var y, t := items[0], items[1..];
      assert items == [y] + t;
      FilterCons(ImageWithId(a), y, t);
      if y.id == a {
        assert forall j :: 0 <= j < |t| ==> !ImageWithId(a)(t[j]) by {
          forall j | 0 <= j < |t|
            ensures !ImageWithId(a)(t[j])
          {
            assert t[j] == items[j + 1];
          }
        }
        FilterNone(ImageWithId(a), t);
      } else {
        ImagesWithIdFound(t, a);
      }
    }
  }

  /** `clearHistory`: every unpinned entry goes, its image file deleted if
      it is an image; pinned entries stay, in order; then the history is
      saved. */
  function ClearHistory(h: History): (s: Step)
    ensures s.history.items == Filter(IsPinned, h.items)
    ensures forall i :: 0 <= i < |s.history.items| ==> s.history.items[i].isPinned && s.history.items[i] in h.items
    ensures forall i :: 0 <= i < |h.items| && h.items[i].isPinned ==> h.items[i] in s.history.items
    ensures |s.requests| == Count(IsUnpinned, Filter(IsImage, h.items)) + 1
    ensures s.requests[|s.requests| - 1] == StorageService.CallSaveHistory(s.history.items)
    ensures forall k :: 0 <= k < |s.requests| - 1 ==>
              s.requests[k] == StorageService.CallDeleteImage(Filter(IsUnpinned, Filter(IsImage, h.items))[k].id)
  {
    var unpinned := Filter(IsUnpinned, h.items);
    var pinned := Filter(IsPinned, h.items);
    FilterIndices(IsPinned, h.items);
    FilterCommute(IsUnpinned, IsImage, h.items);
    Step(History(pinned, h.imageCount - CountImages(unpinned)),
         ImageDeletions(unpinned) + [StorageService.CallSaveHistory(pinned)])
  }

  /** `clearHistory` keeps the counter equal to the number of image entries. */
  lemma ClearHistoryKeepsCounter(h: History)
    requires CounterMirrors(h)
    ensures CounterMirrors(ClearHistory(h).history)
  {
    CountSplit(IsImage, IsUnpinned, IsPinned, h.items);
  }

  /** Clearing keeps exactly the pinned entries, in their original order:
      applied to an all-pinned sequence it changes nothing, applied to an
      all-unpinned one it keeps nothing, and clearing a history made of two
      parts keeps what clearing each part keeps, first part first. Together
      with the unpinned entries, the kept ones make up the history, each
      entry exactly as often as it occurs. */
  lemma ClearHistoryKeepsPinnedInOrder(h: History, a: seq<Item>, b: seq<Item>)
    ensures (forall i :: 0 <= i < |h.items| ==> h.items[i].isPinned) ==> ClearHistory(h).history.items == h.items
    ensures (forall i :: 0 <= i < |h.items| ==> !h.items[i].isPinned) ==> ClearHistory(h).history.items == []
    ensures h.items == a + b ==>
              ClearHistory(h).history.items
              == ClearHistory(History(a, h.imageCount)).history.items + ClearHistory(History(b, h.imageCount)).history.items
    ensures multiset(ClearHistory(h).history.items) + multiset(Filter(IsUnpinned, h.items)) == multiset(h.items)
  {
    if forall i :: 0 <= i < |h.items| ==> h.items[i].isPinned {
      FilterAll(IsPinned, h.items);
    }
    if forall i :: 0 <= i < |h.items| ==> !h.items[i].isPinned {
      FilterNone(IsPinned, h.items);
    }
    FilterConcat(IsPinned, a, b);
    FilterComplement(IsPinned, IsUnpinned, h.items);
  }

  /** `togglePin`: flips the pin of the first entry with the id and saves;
      nothing else changes. An absent id changes nothing and saves nothing. */
  function TogglePin(h: History, id: Uuid): (s: Step)
    ensures s.history.imageCount == h.imageCount
    ensures |s.history.items| == |h.items|
    ensures (forall j :: 0 <= j < |h.items| ==> h.items[j].id != id) ==> s == Step(h, [])
    ensures (exists j :: 0 <= j < |h.items| && h.items[j].id == id) ==>
              exists k :: 0 <= k < |h.items| && h.items[k].id == id
                && (forall j :: 0 <= j < k ==> h.items[j].id != id)
                && s.history.items[k] == h.items[k].(isPinned := !h.items[k].isPinned)
                && (forall j :: 0 <= j < |h.items| && j != k ==> s.history.items[j] == h.items[j])
                && s.requests == [StorageService.CallSaveHistory(s.history.items)]
  {
    match FirstIndexOf(h.items, id)
    case None => Step(h, [])
    case Some(k) =>
      var items := h.items[k := h.items[k].(isPinned := !h.items[k].isPinned)];
      Step(History(items, h.imageCount), [StorageService.CallSaveHistory(items)])
  }

  /** Pinning changes neither the number of images nor any id or
      fingerprint, so both history invariants survive it. */
  lemma TogglePinKeepsInvariants(h: History, id: Uuid)
    ensures CounterMirrors(h) ==> CounterMirrors(TogglePin(h, id).history)
    ensures forall i :: 0 <= i < |h.items| ==>
              ContentHash(TogglePin(h, id).history.items[i]) == ContentHash(h.items[i])
              && TogglePin(h, id).history.items[i].id == h.items[i].id
    ensures DistinctHashes(h.items) ==> DistinctHashes(TogglePin(h, id).history.items)
  {
    match FirstIndexOf(h.items, id)
    case None =>
    case Some(k) =>
      var y := h.items[k];
      ContentHashIgnoresIdentity(y, y.id, y.createdAt, !y.isPinned);
      CountUpdate(IsImage, h.items, k, y.(isPinned := !y.isPinned));
  }

  /** Toggling the same entry twice restores the history. */
  lemma TogglePinTwiceRestores(h: History, id: Uuid)
    ensures TogglePin(TogglePin(h, id).history, id).history == h
  {
    match FirstIndexOf(h.items, id)
    case None =>
    case Some(k) =>
      var once := TogglePin(h, id).history;
      assert forall j :: 0 <= j < |h.items| ==> once.items[j].id == h.items[j].id;
      FirstIndexOfSameIds(h.items, once.items, id);
      assert once.items[k := once.items[k].(isPinned := !once.items[k].isPinned)] == h.items;
  }

  /** Lists with the same ids position by position agree on the first index
      of an id. */
  lemma FirstIndexOfSameIds(a: seq<Item>, b: seq<Item>, id: Uuid)
    requires |a| == |b| && forall j :: 0 <= j < |a| ==> a[j].id == b[j].id
    ensures FirstIndexOf(a, id) == FirstIndexOf(b, id)
  {
  }

  // ---------------------------------------------------------------------
  // Persistence
  // ---------------------------------------------------------------------

  /** The disk holds the history: loading it gives back every entry with
      its date cut to whole seconds, no image entry without bytes has a
      file that a later load would attach to it, and ids are unique. */
  predicate DiskMirrors(disk: StorageService.Disk, h: History) {
    && StorageService.UniqueIds(h.items)
    && StorageService.NoStaleImage(disk, h.items)
    && StorageService.LoadHistory(disk, StorageService.NoFaults) == StorageService.AtWholeSeconds(h.items)
  }

  /** Loading establishes the invariant: a document with unique ids and
      whole-second dates, as every save writes, is held by the disk in the
      form the load returns. Before the first save there is no document and
      the empty history is held. */
  lemma LoadedDiskMirrors(disk: StorageService.Disk)
    requires disk.doc.Some? ==>
               && StorageService.UniqueIds(disk.doc.value)
               && forall i :: 0 <= i < |disk.doc.value| ==> disk.doc.value[i].createdAt % 1000 == 0
    ensures DiskMirrors(disk, LoadHistory(disk, StorageService.NoFaults))
    ensures disk.doc.None? ==> LoadHistory(disk, StorageService.NoFaults) == History([], 0)
  {
    var loaded := LoadHistory(disk, StorageService.NoFaults).items;
    if disk.doc.Some? {
      var doc := disk.doc.value;
      assert forall i :: 0 <= i < |loaded| ==> loaded[i].id == doc[i].id && loaded[i].createdAt == doc[i].createdAt;
      forall i | 0 <= i < |loaded|
        ensures StorageService.AtWholeSeconds(loaded)[i] == loaded[i]
      {
      }
    }
  }

  /** So the disk a save leaves behind holds what the next load returns,
      whatever was on it before. */
  lemma SavedDiskMirrorsLoad(before: StorageService.Disk, items: seq<Item>)
    requires StorageService.UniqueIds(items)
    ensures var disk := StorageService.SaveHistory(before, items, StorageService.NoFaults);
            DiskMirrors(disk, LoadHistory(disk, StorageService.NoFaults))
  {
    LoadedDiskMirrors(StorageService.SaveHistory(before, items, StorageService.NoFaults));
  }

  /** No entry of the history has the id. */
  predicate FreshId(items: seq<Item>, id: Uuid) {
    forall j :: 0 <= j < |items| ==> items[j].id != id
  }

  lemma UniqueIdsRemoveAt(items: seq<Item>, k: nat)
    requires k < |items| && StorageService.UniqueIds(items)
    ensures StorageService.UniqueIds(RemoveAt(items, k))
  {
    var r := RemoveAt(items, k);
    forall i, j | 0 <= i < j < |r|
      ensures r[i].id != r[j].id
    {
      var i' := if i < k then i else i + 1;
      var j' := if j < k then j else j + 1;
      assert r[i] == items[i'] && r[j] == items[j'];
    }
  }

  lemma UniqueIdsCons(x: Item, items: seq<Item>)
    requires StorageService.UniqueIds(items) && FreshId(items, x.id)
    ensures StorageService.UniqueIds([x] + items)
  {
    var full := [x] + items;
    forall i, j | 0 <= i < j < |full|
      ensures full[i].id != full[j].id
    {
      assert full[j] == items[j - 1];
      if i > 0 {
        assert full[i] == items[i - 1];
      }
    }
  }

  /** A prefix keeps ids unique and creates no stale file. */
  lemma PrefixKeepsDisk(disk: StorageService.Disk, items: seq<Item>, m: nat)
    requires m <= |items|
    requires StorageService.UniqueIds(items) && StorageService.NoStaleImage(disk, items)
    ensures StorageService.UniqueIds(items[..m]) && StorageService.NoStaleImage(disk, items[..m])
  {
  }

  /** A history saved after file deletions is held by the resulting disk. */
  lemma SavedMirrors(disk: StorageService.Disk, deletions: seq<Request>, h: History)
    requires forall k :: 0 <= k < |deletions| ==> deletions[k].CallDeleteImage?
    requires StorageService.UniqueIds(h.items) && StorageService.NoStaleImage(disk, h.items)
    ensures DiskMirrors(StorageService.Apply(disk, deletions + [StorageService.CallSaveHistory(h.items)], StorageService.NoFaults), h)
  {
    StorageService.SaveAfterDeletes(disk, deletions, h.items);
  }

  /** The image-cap stage of `addItem` only removes entries and only asks
      for file deletions, so it keeps ids unique and fresh ids fresh, and
      creates no stale file. */
  lemma MakeRoomKeepsDisk(h: History, x: Item, settings: Settings, disk: StorageService.Disk)
    requires StorageService.UniqueIds(h.items) && StorageService.NoStaleImage(disk, h.items)
    ensures var room := MakeRoom(h, x, settings);
            && StorageService.UniqueIds(room.items)
            && StorageService.NoStaleImage(disk, room.items)
            && (FreshId(h.items, x.id) ==> FreshId(room.items, x.id))
            && forall k :: 0 <= k < |room.requests| ==> room.requests[k].CallDeleteImage?
  {
    var room := MakeRoom(h, x, settings);
    if room.items != h.items {
      var k := LastImageIndex(h.items).value;
      assert room.items == RemoveAt(h.items, k);
      UniqueIdsRemoveAt(h.items, k);
      forall i | 0 <= i < |room.items|
        ensures room.items[i] == h.items[if i < k then i else i + 1]
      {
      }
    }
  }

  /** Inserting at the front an entry with a fresh id, and with its bytes
      if it is an image, keeps ids unique and creates no stale file. */
  lemma ConsKeepsDisk(disk: StorageService.Disk, x: Item, items: seq<Item>)
    requires StorageService.UniqueIds(items) && StorageService.NoStaleImage(disk, items)
    requires FreshId(items, x.id) && (IsImage(x) ==> x.imageData.Some?)
    ensures StorageService.UniqueIds([x] + items) && StorageService.NoStaleImage(disk, [x] + items)
  {
    UniqueIdsCons(x, items);
    var full := [x] + items;
    forall i | 0 < i < |full|
      ensures full[i] == items[i - 1]
    {
    }
  }

  /** Applying the requests of `addItem` to a disk that holds the history
      leaves a disk that holds the new history, provided the new entry has
      a fresh id and, when it is an image, carries its bytes (as
      `ClipboardItem.FromPasteboard` guarantees). */
  lemma AddItemKeepsDiskMirror(h: History, x: Item, settings: Settings, disk: StorageService.Disk)
    requires DiskMirrors(disk, h)
    requires FreshId(h.items, x.id)
    requires IsImage(x) ==> x.imageData.Some?
    ensures var s := AddItem(h, x, settings);
            DiskMirrors(StorageService.Apply(disk, s.requests, StorageService.NoFaults), s.history)
  {
    if !IsDuplicate(h.items, x) {
      var room := MakeRoom(h, x, settings);
      MakeRoomKeepsDisk(h, x, settings, disk);
      var full := [x] + room.items;
      ConsKeepsDisk(disk, x, room.items);
      var m := MaxHistoryCount(settings);
      var trimmed := TrimOverflow(full, room.imageCount, m);
      assert AddItem(h, x, settings) == Step(History(trimmed.0, trimmed.1), room.requests + [StorageService.CallSaveHistory(trimmed.0)]);
      if |full| > m {
        PrefixKeepsDisk(disk, full, m);
      }
      SavedMirrors(disk, room.requests, History(trimmed.0, trimmed.1));
    }
  }

  /** Applying the requests of `deleteItem` to a disk that holds the history
      leaves a disk that holds the new history. */
  lemma DeleteItemKeepsDiskMirror(h: History, id: Uuid, disk: StorageService.Disk)
    requires DiskMirrors(disk, h)
    ensures var s := DeleteItem(h, id);
            DiskMirrors(StorageService.Apply(disk, s.requests, StorageService.NoFaults), s.history)
  {
    match FirstIndexOf(h.items, id)
    case None =>
    case Some(k) =>
      var s := DeleteItem(h, id);
      var items := RemoveAt(h.items, k);
      UniqueIdsRemoveAt(h.items, k);
      forall i | 0 <= i < |items| && items[i].contentType == Image && items[i].imageData.None?
        ensures StorageService.ImageFileName(items[i].id) !in disk.images
      {
        assert items[i] == h.items[if i < k then i else i + 1];
      }
      var deletions := if IsImage(h.items[k]) then [StorageService.CallDeleteImage(id)] else [];
      assert s.requests == deletions + [StorageService.CallSaveHistory(items)];
      StorageService.SaveAfterDeletes(disk, deletions, items);
  }

  /** Applying the requests of `togglePin` to a disk that holds the history
      leaves a disk that holds the new history. */
  lemma TogglePinKeepsDiskMirror(h: History, id: Uuid, disk: StorageService.Disk)
    requires DiskMirrors(disk, h)
    ensures var s := TogglePin(h, id);
            DiskMirrors(StorageService.Apply(disk, s.requests, StorageService.NoFaults), s.history)
  {
    match FirstIndexOf(h.items, id)
    case None =>
    case Some(k) =>
      var s := TogglePin(h, id);
      TogglePinKeepsInvariants(h, id);
      assert s.requests == [] + [StorageService.CallSaveHistory(s.history.items)];
      StorageService.SaveAfterDeletes(disk, [], s.history.items);
  }

  /** Filtering keeps ids unique and creates no stale file. */
  lemma {:induction false} FilterKeepsDisk(p: Item -> bool, disk: StorageService.Disk, items: seq<Item>)
    requires StorageService.UniqueIds(items) && StorageService.NoStaleImage(disk, items)
    ensures StorageService.UniqueIds(Filter(p, items)) && StorageService.NoStaleImage(disk, Filter(p, items))
  {
    if items != [] {
      var rest := items[1..];
      FilterKeepsDisk(p, disk, rest);
      FilterCons(p, items[0], rest);
      assert items == [items[0]] + rest;
      if p(items[0]) {
        FilterIndices(p, rest);
        UniqueIdsCons(items[0], Filter(p, rest));
        var r := Filter(p, items);
        forall i | 0 < i < |r|
          ensures r[i] == Filter(p, rest)[i - 1]
        {
        }
      }
    }
  }

  /** Applying the requests of `deleteItems`, as written, to a disk that
      holds the history leaves a disk that holds the new history: the
      counter slip of a repeated id does not reach the disk. */
  lemma DeleteItemsKeepsDiskMirror(h: History, ids: seq<Uuid>, disk: StorageService.Disk)
    requires DiskMirrors(disk, h)
    ensures var s := DeleteItems(h, ids);
            DiskMirrors(StorageService.Apply(disk, s.requests, StorageService.NoFaults), s.history)
  {
    var s := DeleteItems(h, ids);
    var pass := CountDownListed(h.items, ids);
    FilterKeepsDisk(Unlisted(ids), disk, h.items);
    SavedMirrors(disk, pass.1, s.history);
  }

  /** Applying the requests of `clearHistory` to a disk that holds the
      history leaves a disk that holds the pinned entries. */
  lemma ClearHistoryKeepsDiskMirror(h: History, disk: StorageService.Disk)
    requires DiskMirrors(disk, h)
    ensures var s := ClearHistory(h);
            DiskMirrors(StorageService.Apply(disk, s.requests, StorageService.NoFaults), s.history)
  {
    var s := ClearHistory(h);
    var deletions := ImageDeletions(Filter(IsUnpinned, h.items));
    FilterKeepsDisk(IsPinned, disk, h.items);
    SavedMirrors(disk, deletions, s.history);
  }

  // ---------------------------------------------------------------------
  // Queries
  // ---------------------------------------------------------------------

  function HasType(t: ContentType): Item -> bool {
    (x: Item) => x.contentType == t
  }

  /** An entry matches a query when its preview text or its type's display
      name contains the query; `contains` stands for the locale-aware,
      case-insensitive substring test, which is a parameter. All images
      share the preview "[图片]" and the label "图片", so they match or miss
      a query together, whatever their bytes. */
  function Matching(query: string, contains: (string, string) -> bool): (r: Item -> bool)
    ensures forall x :: r(x) <==> contains(PreviewText(x), query) || contains(x.contentType.DisplayName(), query)
    ensures forall x, y :: IsImage(x) && IsImage(y) ==> r(x) == r(y)
  {
    (x: Item) => contains(PreviewText(x), query) || contains(x.contentType.DisplayName(), query)
  }

  /** The entries `searchItems` selects, before ordering: those of the
      filtered type, and, for a non-empty query, that match it. */
  function Selected(items: seq<Item>, query: string, typeFilter: Option<ContentType>,
                    contains: (string, string) -> bool): (r: seq<Item>)
    ensures forall i :: 0 <= i < |r| ==> r[i] in items
    ensures typeFilter.Some? ==> forall i :: 0 <= i < |r| ==> r[i].contentType == typeFilter.value
  {
    var filtered := match typeFilter
                    case Some(t) => (FilterIndices(HasType(t), items); Filter(HasType(t), items))
                    case None => items;
    assert forall i :: 0 <= i < |filtered| ==> filtered[i] in items;
    FilterIndices(Matching(query, contains), filtered);
    if query == "" then filtered else Filter(Matching(query, contains), filtered)
  }

  /** `searchItems`: the selected entries, pinned ones first. */
  function SearchItems(items: seq<Item>, query: string, typeFilter: Option<ContentType>,
                       contains: (string, string) -> bool): (r: seq<Item>)
    ensures forall i, j :: 0 <= i < j < |r| && r[j].isPinned ==> r[i].isPinned
    ensures forall i :: 0 <= i < |r| ==> r[i] in items
    ensures typeFilter.Some? ==> forall i :: 0 <= i < |r| ==> r[i].contentType == typeFilter.value
  {
    var selected := Selected(items, query, typeFilter, contains);
    var pinned := Filter(IsPinned, selected);
    var unpinned := Filter(IsUnpinned, selected);
    FilterIndices(IsPinned, selected);
    FilterIndices(IsUnpinned, selected);
    pinned + unpinned
  }

  /** The search result holds every selected entry exactly as often as the
      selection does. */
  lemma SearchIsPermutationOfSelection(items: seq<Item>, query: string, typeFilter: Option<ContentType>,
                                       contains: (string, string) -> bool)
    ensures multiset(SearchItems(items, query, typeFilter, contains))
            == multiset(Selected(items, query, typeFilter, contains))
  {
    FilterComplement(IsPinned, IsUnpinned, Selected(items, query, typeFilter, contains));
  }

  /** An entry is found exactly when it has the filtered type and, for a
      non-empty query, matches it. */
  lemma SearchFinds(items: seq<Item>, query: string, typeFilter: Option<ContentType>,
                    contains: (string, string) -> bool, x: Item)
    ensures x in SearchItems(items, query, typeFilter, contains) <==>
              && x in items
              && (typeFilter.Some? ==> x.contentType == typeFilter.value)
              && (query != "" ==> Matching(query, contains)(x))
  {
    var r := SearchItems(items, query, typeFilter, contains);
    var selected := Selected(items, query, typeFilter, contains);
    SearchIsPermutationOfSelection(items, query, typeFilter, contains);
    assert x in r <==> x in multiset(selected);
    var filtered := match typeFilter
                    case Some(t) => Filter(HasType(t), items)
                    case None => items;
    if typeFilter.Some? {
      FilterMembers(HasType(typeFilter.value), items, x);
    }
    FilterMembers(Matching(query, contains), filtered, x);
  }

  /** With an empty query the search returns every entry of the filtered
      type (every entry, without a filter), each as often as it occurs. */
  lemma SearchEmptyQueryIsPermutation(items: seq<Item>, typeFilter: Option<ContentType>,
                                       contains: (string, string) -> bool)
    ensures multiset(SearchItems(items, "", typeFilter, contains))
            == multiset(if typeFilter.Some? then Filter(HasType(typeFilter.value), items) else items)
  {
    SearchIsPermutationOfSelection(items, "", typeFilter, contains);
  }

  /** The pinned results, and the unpinned ones, keep the relative order
      they have in the history. */
  lemma SearchIsStable(items: seq<Item>, query: string, typeFilter: Option<ContentType>,
                       contains: (string, string) -> bool)
    ensures var r := SearchItems(items, query, typeFilter, contains);
            var selected := Selected(items, query, typeFilter, contains);
            && Filter(IsPinned, r) == Filter(IsPinned, selected)
            && Filter(IsUnpinned, r) == Filter(IsUnpinned, selected)
  {
    var selected := Selected(items, query, typeFilter, contains);
    var p := Filter(IsPinned, selected);
    var u := Filter(IsUnpinned, selected);
    FilterConcat(IsPinned, p, u);
    FilterConcat(IsUnpinned, p, u);
    FilterAll(IsPinned, p);
    FilterNone(IsPinned, u);
    FilterNone(IsUnpinned, p);
    FilterAll(IsUnpinned, u);
  }

  /** One group of `groupedItems`. */
  datatype Group = Group(contentType: ContentType, items: seq<Item>)

  /** The content types in ascending order of their raw values. */
  const TypesByRawValue: seq<ContentType> := [FilePath, Image, PlainText, RichText, Url]

  /** Lexicographic order on strings by character code (Swift's `<`). */
  predicate StringLess(a: string, b: string) {
    if a == [] then b != []
    else if b == [] then false
    else a[0] < b[0] || (a[0] == b[0] && StringLess(a[1..], b[1..]))
  }

  /** The entries of type `t`, in history order. */
  function OfType(t: ContentType, items: seq<Item>): (r: seq<Item>)
    ensures forall i :: 0 <= i < |r| ==> r[i].contentType == t
    decreases |items|
  {
    if items == [] then []
    else (if items[0].contentType == t then [items[0]] else []) + OfType(t, items[1..])
  }

  /** `OfType` is the type filter `searchItems` applies. */
  lemma {:induction false} OfTypeIsFilter(t: ContentType, items: seq<Item>)
    ensures OfType(t, items) == Filter(HasType(t), items)
    decreases |items|
  {
    if items != [] {
      var x, rest := items[0], items[1..];
      OfTypeIsFilter(t, rest);
      assert items == [x] + rest;
      FilterCons(HasType(t), x, rest);
      assert OfType(t, items) == (if x.contentType == t then [x] else []) + OfType(t, rest);
    }
  }

  /** The groups for the given types, in that order, skipping empty ones. */
  function GroupsFor(types: seq<ContentType>, items: seq<Item>): (r: seq<Group>)
    ensures forall i :: 0 <= i < |r| ==>
              r[i].items != [] && r[i].contentType in types && r[i].items == OfType(r[i].contentType, items)
    decreases |types|
  {
    if types == [] then []
    else
      var members := OfType(types[0], items);
      (if members == [] then [] else [Group(types[0], members)]) + GroupsFor(types[1..], items)
  }

  /** All entries of the groups, group after group. */
  function Flatten(groups: seq<Group>): seq<Item>
    decreases |groups|
  {
    if groups == [] then [] else groups[0].items + Flatten(groups[1..])
  }

  /** `groupedItems`: the entries grouped by type, the groups ordered by the
      raw value of their type; every group is non-empty and holds exactly
      the entries of its type, in history order. */
  function GroupedItems(items: seq<Item>): (r: seq<Group>)
    ensures forall i :: 0 <= i < |r| ==> r[i].items != [] && r[i].items == Filter(HasType(r[i].contentType), items)
    ensures forall i, j :: 0 <= i < j < |r| ==>
              StringLess(r[i].contentType.RawValue(), r[j].contentType.RawValue())
  {
    var r := GroupsFor(TypesByRawValue, items);
    GroupsForAscending(TypesByRawValue, items);
    assert forall i, j :: 0 <= i < j < |r| ==>
             StringLess(r[i].contentType.RawValue(), r[j].contentType.RawValue()) by {
      forall i, j | 0 <= i < j < |r|
        ensures StringLess(r[i].contentType.RawValue(), r[j].contentType.RawValue())
      {
        assert TypesOf(r)[i] == r[i].contentType && TypesOf(r)[j] == r[j].contentType;
        RankOrdersRawValues(r[i].contentType, r[j].contentType);
      }
    }
    assert forall i :: 0 <= i < |r| ==> r[i].items == Filter(HasType(r[i].contentType), items) by {
      forall i | 0 <= i < |r|
        ensures r[i].items == Filter(HasType(r[i].contentType), items)
      {
        OfTypeIsFilter(r[i].contentType, items);
      }
    }
    r
  }

  /** The position of a type in `TypesByRawValue`. */
  function Rank(t: ContentType): nat {
    match t
    case FilePath => 0
    case Image => 1
    case PlainText => 2
    case RichText => 3
    case Url => 4
  }

  /** Ordering types by rank orders their raw values: `file_path` <
      `image` < `plain_text` < `rich_text` < `url`. */
  lemma RankOrdersRawValues(a: ContentType, b: ContentType)
    requires Rank(a) < Rank(b)
    ensures StringLess(a.RawValue(), b.RawValue())
  {
    var x, y := a.RawValue(), b.RawValue();
    assert x[0] < y[0] by {
      match a
      case FilePath => assert x[0] == 'f';
      case Image => assert x[0] == 'i';
      case PlainText => assert x[0] == 'p';
      case RichText => assert x[0] == 'r';
      case Url =>
    }
  }

  /** The types are in strictly ascending rank. */
  predicate RanksAscend(types: seq<ContentType>) {
    forall i, j :: 0 <= i < j < |types| ==> Rank(types[i]) < Rank(types[j])
  }

  /** The types of the groups, in order. */
  function TypesOf(groups: seq<Group>): (r: seq<ContentType>)
    ensures |r| == |groups|
    ensures forall i :: 0 <= i < |groups| ==> r[i] == groups[i].contentType
  {
    seq(|groups|, i requires 0 <= i < |groups| => groups[i].contentType)
  }

  /** Groups built from types of ascending rank come out in ascending rank. */
  lemma {:induction false} GroupsForAscending(types: seq<ContentType>, items: seq<Item>)
    requires RanksAscend(types)
    ensures RanksAscend(TypesOf(GroupsFor(types, items)))
    decreases |types|
  {
    if types != [] {
      var tail := GroupsFor(types[1..], items);
      assert RanksAscend(types[1..]) by {
        forall i, j | 0 <= i < j < |types[1..]|
          ensures Rank(types[1..][i]) < Rank(types[1..][j])
        {
          assert types[1..][i] == types[i + 1] && types[1..][j] == types[j + 1];
        }
      }
      GroupsForAscending(types[1..], items);
      var members := OfType(types[0], items);
      var r := GroupsFor(types, items);
      if members == [] {
        assert r == tail;
      } else {
        assert r == [Group(types[0], members)] + tail;
        var tt := TypesOf(tail);
        assert TypesOf(r) == [types[0]] + tt;
        forall k | 0 <= k < |tt|
          ensures Rank(types[0]) < Rank(tt[k])
        {
          RankHeadBelow(types, tail[k].contentType);
        }
        RanksAscendCons(types[0], tt);
      }
    }
  }

  /** In types of ascending rank, the first outranks none of the rest. */
  lemma RankHeadBelow(types: seq<ContentType>, t: ContentType)
    requires RanksAscend(types) && types != [] && t in types[1..]
    ensures Rank(types[0]) < Rank(t)
  {
    var k :| 0 <= k < |types[1..]| && types[1..][k] == t;
    assert types[k + 1] == t;
  }

  /** A type below all of an ascending sequence extends it at the front. */
  lemma RanksAscendCons(t: ContentType, ts: seq<ContentType>)
    requires RanksAscend(ts)
    requires forall k :: 0 <= k < |ts| ==> Rank(t) < Rank(ts[k])
    ensures RanksAscend([t] + ts)
  {
    var r := [t] + ts;
    forall i, j | 0 <= i < j < |r|
      ensures Rank(r[i]) < Rank(r[j])
    {
      assert r[j] == ts[j - 1];
      if i > 0 {
        assert r[i] == ts[i - 1];
      }
    }
  }

  /** Grouping is a permutation: the groups together hold every entry
      exactly as often as the history does. */
  lemma GroupedItemsIsPermutation(items: seq<Item>)
    ensures multiset(Flatten(GroupedItems(items))) == multiset(items)
  {
    GroupsForFlatten(TypesByRawValue, items);
    TypeFiltersCoverAll(items);
  }

  /** Flattening the groups for `types` gathers the type filters. */
  lemma {:induction false} GroupsForFlatten(types: seq<ContentType>, items: seq<Item>)
    ensures multiset(Flatten(GroupsFor(types, items))) == TypeFilterUnion(types, items)
    decreases |types|
  {
    if types != [] {
      GroupsForFlatten(types[1..], items);
      var members := OfType(types[0], items);
      var head := if members == [] then [] else [Group(types[0], members)];
      FlattenConcat(head, GroupsFor(types[1..], items));
      if members != [] {
        assert Flatten(head) == members + Flatten([]);
      }
    }
  }

  /** The multiset union of the type filters for `types`. */
  function TypeFilterUnion(types: seq<ContentType>, items: seq<Item>): multiset<Item>
    decreases |types|
  {
    if types == [] then multiset{}
    else multiset(OfType(types[0], items)) + TypeFilterUnion(types[1..], items)
  }

  lemma {:induction false} FlattenConcat(a: seq<Group>, b: seq<Group>)
    ensures Flatten(a + b) == Flatten(a) + Flatten(b)
    decreases |a|
  {
    if a == [] {
      assert a + b == b;
    } else {
      assert (a + b)[0] == a[0];
      assert (a + b)[1..] == a[1..] + b;
      FlattenConcat(a[1..], b);
    }
  }

  /** No type occurs twice. */
  predicate DistinctTypes(types: seq<ContentType>) {
    forall i, j :: 0 <= i < j < |types| ==> types[i] != types[j]
  }

  /** An entry adds itself once to the union of the type filters of
      distinct types when its type is among them, and not otherwise. */
  lemma {:induction false} TypeFilterUnionCons(types: seq<ContentType>, x: Item, rest: seq<Item>)
    requires DistinctTypes(types)
    ensures TypeFilterUnion(types, [x] + rest)
            == (if x.contentType in types then multiset{x} else multiset{}) + TypeFilterUnion(types, rest)
    decreases |types|
  {
    if types != [] {
      DistinctTypesTail(types);
      TypeFilterUnionCons(types[1..], x, rest);
      OfTypeCons(types[0], x, rest);
      var u := TypeFilterUnion(types, [x] + rest);
      assert u == multiset(OfType(types[0], [x] + rest)) + TypeFilterUnion(types[1..], [x] + rest);
      assert TypeFilterUnion(types, rest) == multiset(OfType(types[0], rest)) + TypeFilterUnion(types[1..], rest);
      assert x.contentType in types <==> x.contentType == types[0] || x.contentType in types[1..];
    }
  }

  /** After its first type, distinct types stay distinct and lack it. */
  lemma DistinctTypesTail(types: seq<ContentType>)
    requires DistinctTypes(types) && types != []
    ensures DistinctTypes(types[1..]) && types[0] !in types[1..]
  {
    forall i, j | 0 <= i < j < |types[1..]|
      ensures types[1..][i] != types[1..][j]
    {
      assert types[1..][i] == types[i + 1] && types[1..][j] == types[j + 1];
    }
  }

  /** Every entry has one of the five types, so the five type filters
      together cover the history exactly. */
  lemma {:induction false} TypeFiltersCoverAll(items: seq<Item>)
    ensures TypeFilterUnion(TypesByRawValue, items) == multiset(items)
    decreases |items|
  {
    if items != [] {
      TypeFiltersCoverAll(items[1..]);
      var x := items[0];
      var rest := items[1..];
      assert items == [x] + rest;
      assert multiset(items) == multiset{x} + multiset(rest);
      TypesByRawValueComplete(x.contentType);
      TypeFilterUnionCons(TypesByRawValue, x, rest);
    }
  }

  /** `TypesByRawValue` lists every content type exactly once. */
  lemma TypesByRawValueComplete(t: ContentType)
    ensures DistinctTypes(TypesByRawValue) && t in TypesByRawValue
  {
    assert TypesByRawValue[Rank(t)] == t;
  }

  /** The type filter of a sequence with a known first entry. */
  lemma OfTypeCons(t: ContentType, x: Item, rest: seq<Item>)
    ensures multiset(OfType(t, [x] + rest))
            == (if x.contentType == t then multiset{x} else multiset{}) + multiset(OfType(t, rest))
  {
    assert ([x] + rest)[0] == x && ([x] + rest)[1..] == rest;
  }
}

=== FILE: clipboard_item.dfy ===
/** One captured clipboard entry: its content types, the content fingerprint
    used to recognise duplicates, the classifier that turns a pasteboard
    snapshot into an entry, and the one-line preview shown in lists and
    matched by search. */
module ClipboardItem {
  import opened Basics
  import opened Foundation
  import Hex

  /** The five content types, with their persisted raw values. */
  datatype ContentType = PlainText | RichText | Image | Url | FilePath {

    /** The string each case is encoded as in the history document; the
        decoder reads it back to the same case. */
    function RawValue(): (r: string)
      ensures FromRawValue(r) == Some(this)
    {
      match this
      case PlainText => "plain_text"
      case RichText => "rich_text"
      case Image => "image"
      case Url => "url"
      case FilePath => "file_path"
    }

    /** The case a raw value decodes to, as `init(rawValue:)`; any other
        string is not a content type. */
    static function FromRawValue(s: string): Option<ContentType> {
      if s == "plain_text" then Some(PlainText)
      else if s == "rich_text" then Some(RichText)
      else if s == "image" then Some(Image)
      else if s == "url" then Some(Url)
      else if s == "file_path" then Some(FilePath)
      else None
    }

    /** The label shown for a type, and matched by search: "图片" (image)
        for images and "文本" (text) for the four text-like types. */
    function DisplayName(): (r: string)
      ensures this == Image <==> r == "图片"
      ensures this != Image <==> r == "文本"
    {
      match this
      case Image => "图片"
      case _ => "文本"
    }
  }

  /** Decoding is the inverse of encoding: a string that decodes to a type
      is that type's raw value, so no two types share a raw value. */
  lemma RawValueRoundTrip(s: string, a: ContentType, b: ContentType)
    ensures ContentType.FromRawValue(s).Some? ==> ContentType.FromRawValue(s).value.RawValue() == s
    ensures a.RawValue() == b.RawValue() ==> a == b
  {
  }

  /** A clipboard entry. Only the payload field belonging to `contentType`
      is normally set; `url` holds the URL's absolute string. */
  datatype Item = Item(
    id: Uuid,
    contentType: ContentType,
    textContent: Option<string>,
    htmlContent: Option<string>,
    imageData: Option<seq<byte>>,
    url: Option<string>,
    filePath: Option<string>,
    createdAt: Timestamp,
    isPinned: bool)

  predicate IsImage(x: Item) {
    x.contentType == Image
  }

  predicate IsPinned(x: Item) {
    x.isPinned
  }

  predicate IsUnpinned(x: Item) {
    !x.isPinned
  }

  /** `c` is a lower-case hexadecimal digit, as `%02x` writes them. */
  predicate IsLowerHex(c: char) {
    Hex.IsDigit(c, false)
  }

  /** The fingerprint two entries are compared by to detect duplicates: the
      raw text for the text-like types, and for an image the SHA-256 digest
      of its bytes written as 64 lower-case hexadecimal digits. */
  function ContentHash(x: Item): (r: string)
    ensures x.contentType == PlainText ==> r == x.textContent.GetOr("")
    ensures x.contentType == RichText ==> r == x.htmlContent.OrElse(x.textContent).GetOr("")
    ensures x.contentType == Url ==> r == x.url.GetOr("")
    ensures x.contentType == FilePath ==> r == x.filePath.GetOr("")
    ensures x.contentType == Image && x.imageData.None? ==> r == ""
    ensures x.contentType == Image && x.imageData.Some? ==>
              |r| == 64 && forall i :: 0 <= i < |r| ==> IsLowerHex(r[i])
  {
    match x.contentType
    case PlainText => x.textContent.GetOr("")
    case RichText => x.htmlContent.OrElse(x.textContent).GetOr("")
    case Image =>
      if x.imageData.Some? then Hex.Encode(Sha256(x.imageData.value), false) else ""
    case Url => x.url.GetOr("")
    case FilePath => x.filePath.GetOr("")
  }

  /** The fingerprint depends on the content type and payload only: the id,
      the capture time and the pin flag never change it. */
  lemma ContentHashIgnoresIdentity(x: Item, id: Uuid, createdAt: Timestamp, isPinned: bool)
    ensures ContentHash(x.(id := id, createdAt := createdAt, isPinned := isPinned)) == ContentHash(x)
  {
  }

  /** Two images with data have the same fingerprint exactly when their
      SHA-256 digests are equal. */
  lemma ImageHashMatchesDigest(x: Item, y: Item)
    requires x.contentType == Image && x.imageData.Some?
    requires y.contentType == Image && y.imageData.Some?
    ensures ContentHash(x) == ContentHash(y) <==> Sha256(x.imageData.value) == Sha256(y.imageData.value)
  {
    if ContentHash(x) == ContentHash(y) {
      Hex.EncodeInjective(Sha256(x.imageData.value), Sha256(y.imageData.value), false);
    }
  }

  /** What the general pasteboard offers at one instant: its change count,
      the PNG encoding of its first image object (absent when there is no
      image or it does not convert) and its plain string, if any. */
  datatype Snapshot = Snapshot(changeCount: int, png: Option<seq<byte>>, text: Option<string>)

  /** The classifier: an image wins over text; otherwise a non-empty string
      becomes a plain-text entry; otherwise nothing is captured. `id` and
      `now` are the fresh UUID and the current date a new entry receives. */
  function FromPasteboard(p: Snapshot, id: Uuid, now: Timestamp): (r: Option<Item>)
    ensures p.changeCount <= 0 ==> r.None?
    ensures r.Some? <==> p.changeCount > 0 && (p.png.Some? || (p.text.Some? && p.text.value != ""))
    ensures r.Some? ==> r.value.id == id && r.value.createdAt == now && !r.value.isPinned
    ensures r.Some? ==> r.value.contentType == Image || r.value.contentType == PlainText
    ensures r.Some? && p.png.Some? ==> r.value.contentType == Image && r.value.imageData == p.png
    ensures r.Some? && p.png.None? ==> r.value.contentType == PlainText && r.value.textContent == p.text
    ensures r.Some? ==> r.value.htmlContent.None? && r.value.url.None? && r.value.filePath.None?
  {
    if p.changeCount <= 0 then None
    else if p.png.Some? then
      Some(Item(id, Image, None, None, p.png, None, None, now, false))
    else if p.text.Some? && p.text.value != "" then
      Some(Item(id, PlainText, p.text, None, None, None, None, now, false))
    else None
  }

  // ---------------------------------------------------------------------
  // Preview text
  // ---------------------------------------------------------------------

  /** Foundation's `whitespacesAndNewlines`: Unicode space separators, tab,
      and the newline characters U+000A–U+000D, U+0085, U+2028, U+2029. */
  predicate IsWhitespace(c: char) {
    var n := c as int;
    || n == 0x20 || n == 0x09 || (0x0A <= n <= 0x0D) || n == 0x85 || n == 0xA0
    || n == 0x1680 || (0x2000 <= n <= 0x200A) || n == 0x2028 || n == 0x2029
    || n == 0x202F || n == 0x205F || n == 0x3000
  }

  predicate IsNotNewline(c: char) {
    c != '\n'
  }

  predicate IsNotCarriageReturn(c: char) {
    c != '\r'
  }

  /** No two consecutive line feeds. */
  predicate NoBlankLine(s: string) {
    forall i :: 0 <= i < |s| - 1 ==> !(s[i] == '\n' && s[i + 1] == '\n')
  }

  /** `s` without its leading whitespace. */
  function TrimStart(s: string): (r: string)
    ensures |r| <= |s| && r == s[|s| - |r|..]
    ensures forall i :: 0 <= i < |s| - |r| ==> IsWhitespace(s[i])
    ensures r == [] || !IsWhitespace(r[0])
  {
    if s != [] && IsWhitespace(s[0]) then TrimStart(s[1..]) else s
  }

  /** `s` without its trailing whitespace. */
  function TrimEnd(s: string): (r: string)
    ensures |r| <= |s| && r == s[..|r|]
    ensures forall i :: |r| <= i < |s| ==> IsWhitespace(s[i])
    ensures r == [] || !IsWhitespace(r[|r| - 1])
    ensures r != [] ==> r[0] == s[0]
  {
    if s != [] && IsWhitespace(s[|s| - 1]) then TrimEnd(s[..|s| - 1]) else s
  }

  /** `r` is the part of `s` starting at `a`, and everything of `s` before
      and after that part is whitespace. */
  predicate TrimmedAt(s: string, r: string, a: nat) {
    && a + |r| <= |s|
    && r == s[a..a + |r|]
    && (forall i :: 0 <= i < a ==> IsWhitespace(s[i]))
    && (forall i :: a + |r| <= i < |s| ==> IsWhitespace(s[i]))
  }

  /** `trimmingCharacters(in: .whitespacesAndNewlines)`: the infix of `s`
      left once whitespace is stripped from both ends, which is empty
      exactly when `s` is all whitespace. */
  function Trim(s: string): (r: string)
    ensures exists a :: TrimmedAt(s, r, a)
    ensures r == [] || (!IsWhitespace(r[0]) && !IsWhitespace(r[|r| - 1]))
  {
    var t := TrimStart(s);
    var r := TrimEnd(t);
    assert TrimmedAt(s, r, |s| - |t|);
    r
  }

  /** Trimming leaves a string that already starts and ends with
      non-whitespace unchanged. */
  lemma TrimUnchanged(s: string)
    requires s == [] || (!IsWhitespace(s[0]) && !IsWhitespace(s[|s| - 1]))
    ensures Trim(s) == s
  {
  }

  /** `replacingOccurrences(of: "\r\n", with: "\n")`, scanning left to right. */
  function ReplaceCrlf(s: string): (r: string)
    ensures |r| <= |s|
    ensures s != [] ==> r != [] && (r[0] == s[0] || (s[0] == '\r' && r[0] == '\n'))
  {
    if |s| >= 2 && s[0] == '\r' && s[1] == '\n' then "\n" + ReplaceCrlf(s[2..])
    else if s == [] then []
    else [s[0]] + ReplaceCrlf(s[1..])
  }

  /** A character that does not start a CRLF pair is copied. */
  lemma ReplaceCrlfCons(c: char, b: string)
    requires c != '\r' || b == [] || b[0] != '\n'
    ensures ReplaceCrlf([c] + b) == [c] + ReplaceCrlf(b)
  {
    assert ([c] + b)[1..] == b;
  }

  /** A CRLF pair at the front becomes one line feed. */
  lemma ReplaceCrlfPair(b: string)
    ensures ReplaceCrlf(['\r', '\n'] + b) == ['\n'] + ReplaceCrlf(b)
  {
    assert (['\r', '\n'] + b)[2..] == b;
  }

  /** Replacing CRLF deletes carriage returns only: with every `\r` dropped,
      input and output agree. */
  lemma {:induction false} ReplaceCrlfDropsOnlyCarriageReturns(s: string)
    ensures Filter(IsNotCarriageReturn, ReplaceCrlf(s)) == Filter(IsNotCarriageReturn, s)
  {
    if s == [] {
    } else if |s| >= 2 && s[0] == '\r' && s[1] == '\n' {
      var rest := s[2..];
      assert s == ['\r'] + (['\n'] + rest);
      ReplaceCrlfPair(rest);
      ReplaceCrlfDropsOnlyCarriageReturns(rest);
      FilterCons(IsNotCarriageReturn, '\n', ReplaceCrlf(rest));
      FilterCons(IsNotCarriageReturn, '\r', ['\n'] + rest);
      FilterCons(IsNotCarriageReturn, '\n', rest);
    } else {
      var t := s[1..];
      assert s == [s[0]] + t;
      ReplaceCrlfCons(s[0], t);
      ReplaceCrlfDropsOnlyCarriageReturns(t);
      FilterCons(IsNotCarriageReturn, s[0], ReplaceCrlf(t));
      FilterCons(IsNotCarriageReturn, s[0], t);
    }
  }

  /** Putting a character in front commutes with concatenation. */
  lemma ConsAssoc(x: char, p: string, q: string)
    ensures [x] + (p + q) == ([x] + p) + q
  {
  }

  /** Replacing works piece by piece, unless the cut separates a carriage
      return from the line feed after it. */
  lemma {:induction false} ReplaceCrlfConcat(a: string, c: string)
    requires a == [] || c == [] || !(a[|a| - 1] == '\r' && c[0] == '\n')
    ensures ReplaceCrlf(a + c) == ReplaceCrlf(a) + ReplaceCrlf(c)
    decreases |a|
  {
    if a == [] {
      assert a + c == c;
    } else if |a| >= 2 && a[0] == '\r' && a[1] == '\n' {
      var t := a[2..];
      ReplaceCrlfConcat(t, c);
      assert a == ['\r', '\n'] + t;
      assert a + c == ['\r', '\n'] + t + c;
      ReplaceCrlfConcatPair(t, c);
    } else {
      var x, t := a[0], a[1..];
      ReplaceCrlfConcat(t, c);
      assert a == [x] + t;
      assert a + c == [x] + t + c;
      ReplaceCrlfConcatCons(x, t, c);
    }
  }

  /** The step of `ReplaceCrlfConcat` for a CRLF pair at the front. */
  lemma ReplaceCrlfConcatPair(t: string, c: string)
    requires ReplaceCrlf(t + c) == ReplaceCrlf(t) + ReplaceCrlf(c)
    ensures ReplaceCrlf(['\r', '\n'] + t + c) == ReplaceCrlf(['\r', '\n'] + t) + ReplaceCrlf(c)
  {
    assert ['\r', '\n'] + t + c == ['\r', '\n'] + (t + c);
    ReplaceCrlfPair(t);
    ReplaceCrlfPair(t + c);
    ConsAssoc('\n', ReplaceCrlf(t), ReplaceCrlf(c));
  }

  /** The step of `ReplaceCrlfConcat` for any other first character. */
  lemma ReplaceCrlfConcatCons(x: char, t: string, c: string)
    requires x != '\r' || t == [] || t[0] != '\n'
    requires x != '\r' || t != [] || c == [] || c[0] != '\n'
    requires ReplaceCrlf(t + c) == ReplaceCrlf(t) + ReplaceCrlf(c)
    ensures ReplaceCrlf([x] + t + c) == ReplaceCrlf([x] + t) + ReplaceCrlf(c)
  {
    if t == [] {
      assert t + c == c;
    } else {
      assert (t + c)[0] == t[0];
    }
    assert [x] + t + c == [x] + (t + c);
    ReplaceCrlfCons(x, t);
    ReplaceCrlfCons(x, t + c);
    ConsAssoc(x, ReplaceCrlf(t), ReplaceCrlf(c));
  }

  /** A carriage return followed by a line feed becomes one line feed. */
  lemma ReplaceCrlfTurnsCrlf(a: string, b: string)
    ensures ReplaceCrlf(a + "\r\n" + b) == ReplaceCrlf(a) + "\n" + ReplaceCrlf(b)
  {
    var c := ['\r', '\n'] + b;
    ReplaceCrlfPair(b);
    ReplaceCrlfConcat(a, c);
    Assoc(a, ['\r', '\n'], b);
    Assoc(ReplaceCrlf(a), ['\n'], ReplaceCrlf(b));
  }

  /** A carriage return not followed by a line feed survives. */
  lemma ReplaceCrlfKeepsLoneCr(a: string, b: string)
    requires b == [] || b[0] != '\n'
    ensures ReplaceCrlf(a + "\r" + b) == ReplaceCrlf(a) + "\r" + ReplaceCrlf(b)
  {
    var c := ['\r'] + b;
    ReplaceCrlfCons('\r', b);
    ReplaceCrlfConcat(a, c);
    Assoc(a, ['\r'], b);
    Assoc(ReplaceCrlf(a), ['\r'], ReplaceCrlf(b));
  }

  /** Concatenation is associative. */
  lemma Assoc(x: string, y: string, z: string)
    ensures x + y + z == x + (y + z)
  {
  }

  /** A string without carriage returns is left alone. */
  lemma {:induction false} ReplaceCrlfUnchanged(s: string)
    requires forall i :: 0 <= i < |s| ==> s[i] != '\r'
    ensures ReplaceCrlf(s) == s
  {
    if s != [] {
      ReplaceCrlfUnchanged(s[1..]);
    }
  }

  /** The regular-expression replacement of `\n{2,}` by a single `\n`: every
      run of line feeds is shortened to one. */
  function CollapseNewlines(s: string): (r: string)
    ensures |r| <= |s|
    ensures NoBlankLine(r)
    ensures s != [] ==> r != [] && r[0] == s[0]
  {
    if |s| >= 2 && s[0] == '\n' && s[1] == '\n' then CollapseNewlines(s[1..])
    else if s == [] then []
    else [s[0]] + CollapseNewlines(s[1..])
  }

  /** Collapsing deletes line feeds only: with every `\n` dropped, input and
      output agree. */
  lemma {:induction false} CollapseDropsOnlyNewlines(s: string)
    ensures Filter(IsNotNewline, CollapseNewlines(s)) == Filter(IsNotNewline, s)
  {
    if s == [] {
    } else if |s| >= 2 && s[0] == '\n' && s[1] == '\n' {
      var t := s[1..];
      assert CollapseNewlines(s) == CollapseNewlines(t);
      CollapseDropsOnlyNewlines(t);
      assert s == [s[0]] + t;
      FilterCons(IsNotNewline, s[0], t);
      assert Filter(IsNotNewline, s) == Filter(IsNotNewline, t);
    } else {
      var t := s[1..];
      assert CollapseNewlines(s) == [s[0]] + CollapseNewlines(t);
      CollapseDropsOnlyNewlines(t);
      FilterCons(IsNotNewline, s[0], CollapseNewlines(t));
      assert s == [s[0]] + t;
      FilterCons(IsNotNewline, s[0], t);
    }
  }

  /** Collapsing works piece by piece, unless the cut splits a run of line
      feeds. */
  lemma {:induction false} CollapseConcat(a: string, c: string)
    requires a == [] || c == [] || !(a[|a| - 1] == '\n' && c[0] == '\n')
    ensures CollapseNewlines(a + c) == CollapseNewlines(a) + CollapseNewlines(c)
  {
    if a == [] {
      assert a + c == c;
    } else {
      assert (a + c)[1..] == a[1..] + c;
      CollapseConcat(a[1..], c);
    }
  }

  /** `k` line feeds. */
  function LineFeeds(k: nat): (r: string)
    ensures |r| == k && forall i :: 0 <= i < k ==> r[i] == '\n'
  {
    seq(k, _ => '\n')
  }

  /** A run of one or more line feeds, followed by anything but a line
      feed, leaves exactly one line feed. */
  lemma {:induction false} CollapseRun(k: nat, b: string)
    requires k >= 1 && (b == [] || b[0] != '\n')
    ensures CollapseNewlines(LineFeeds(k) + b) == "\n" + CollapseNewlines(b)
  {
    var s := LineFeeds(k) + b;
    if k == 1 {
      assert s[1..] == b;
    } else {
      assert s[1..] == LineFeeds(k - 1) + b;
      CollapseRun(k - 1, b);
    }
  }

  /** Between two pieces that do not touch it with a line feed, a run of
      line feeds becomes a single one and nothing else changes. */
  lemma CollapseKeepsOneOfRun(a: string, k: nat, b: string)
    requires k >= 1
    requires a == [] || a[|a| - 1] != '\n'
    requires b == [] || b[0] != '\n'
    ensures CollapseNewlines(a + LineFeeds(k) + b) == CollapseNewlines(a) + "\n" + CollapseNewlines(b)
  {
    assert a + LineFeeds(k) + b == a + (LineFeeds(k) + b);
    CollapseConcat(a, LineFeeds(k) + b);
    CollapseRun(k, b);
  }

  /** A string without a blank line is left alone. */
  lemma {:induction false} CollapseUnchanged(s: string)
    requires NoBlankLine(s)
    ensures CollapseNewlines(s) == s
  {
    if s != [] {
      CollapseUnchanged(s[1..]);
    }
  }

  /** The first `n` characters of `s` (Swift's `prefix(n)`). */
  function Take(s: string, n: nat): (r: string)
    ensures |r| == if |s| <= n then |s| else n
    ensures r == s[..|r|]
    ensures |s| <= n ==> r == s
  {
    if |s| <= n then s else s[..n]
  }

  /** Longest preview, in characters. */
  const PreviewLimit: nat := 200

  /** The text normalisation applied before cutting the preview. */
  function Normalize(text: string): (r: string)
    ensures NoBlankLine(r)
    ensures r == [] || !IsWhitespace(r[0])
  {
    var trimmed := Trim(text);
    var normalized := ReplaceCrlf(trimmed);
    CollapseNewlines(normalized)
  }

  /** The preview of a text: its normalized form cut to the first 200
      characters. */
  function TextPreview(text: string): (r: string)
    ensures var n := Normalize(text);
            |r| == (if |n| <= PreviewLimit then |n| else PreviewLimit) && r == n[..|r|]
    ensures NoBlankLine(r) && (r == [] || !IsWhitespace(r[0]))
  {
    Take(Normalize(text), PreviewLimit)
  }

  /** The one-line preview: a fixed label for images and for text-like
      entries without text; otherwise the trimmed text with CRLF turned into
      LF, runs of line feeds collapsed, cut to 200 characters. */
  function PreviewText(x: Item): (r: string)
    ensures x.contentType == Image ==> r == "[图片]"
    ensures x.contentType != Image && x.textContent.None? ==> r == "(无文本)"
    ensures x.contentType != Image && x.textContent.Some? ==>
              r == TextPreview(x.textContent.value)
              && |r| <= PreviewLimit && NoBlankLine(r) && (r == [] || !IsWhitespace(r[0]))
  {
    match x.contentType
    case Image => "[图片]"
    case _ =>
      match x.textContent
      case Some(text) => TextPreview(text)
      case None => "(无文本)"
  }

  /** Normalizing only drops line breaks from the trimmed text: with every
      carriage return and line feed removed, the two agree, and the result
      is empty exactly when the trimmed text is, and starts with the same
      character. */
  lemma NormalizeDropsOnlyLineBreaks(text: string)
    ensures Filter(IsNotCarriageReturn, Filter(IsNotNewline, Normalize(text)))
            == Filter(IsNotCarriageReturn, Filter(IsNotNewline, Trim(text)))
    ensures Normalize(text) == [] <==> Trim(text) == []
    ensures Trim(text) != [] ==> Normalize(text)[0] == Trim(text)[0]
  {
    var trimmed := Trim(text);
    var replaced := ReplaceCrlf(trimmed);
    CollapseDropsOnlyNewlines(replaced);
    FilterCommute(IsNotCarriageReturn, IsNotNewline, replaced);
    ReplaceCrlfDropsOnlyCarriageReturns(trimmed);
    FilterCommute(IsNotCarriageReturn, IsNotNewline, trimmed);
  }

  /** Text that is already trimmed and holds no line breaks previews as
      itself, cut to the limit. */
  lemma PreviewOfSingleLine(x: Item)
    requires x.contentType != Image && x.textContent.Some?
    requires var t := x.textContent.value;
             (t == [] || (!IsWhitespace(t[0]) && !IsWhitespace(t[|t| - 1])))
             && forall i :: 0 <= i < |t| ==> t[i] != '\r' && t[i] != '\n'
    ensures PreviewText(x) == Take(x.textContent.value, PreviewLimit)
  {
    var t := x.textContent.value;
    TrimUnchanged(t);
    ReplaceCrlfUnchanged(t);
    CollapseUnchanged(t);
  }
}

=== FILE: clipboard_monitor.dfy ===
/** The pasteboard poller: a repeating timer that compares the pasteboard's
    change counter with the last one seen, captures the new content when
    it differs, and adapts its period — fast right after a change, slow
    once the pasteboard has been quiet for a while. The timer is modelled
    by its schedule (first deadline, period, leeway); its firing, the
    clock and the pasteboard are parameters of each call. */
module ClipboardMonitor {
  import opened Basics
  import opened Foundation
  import opened ClipboardItem
  import ClipboardHistory
  import StorageService

  /** Polling periods and the quiet time after which polling slows down,
      in milliseconds. */
  const IdleInterval: int := 2000
  const ActiveInterval: int := 500
  const IdleAfter: int := 8000

  /** Leeways the timer is scheduled with, in milliseconds: on start and on
      a reschedule. */
  const StartLeeway: int := 150
  const RescheduleLeeway: int := 250

  /** A GCD timer schedule: first deadline, repeat period and leeway. */
  datatype Timer = Timer(deadline: Timestamp, repeating: int, leeway: int)

  /** The monitor's state. `lastChangeCount` is the published copy of the
      counter; `changeCount` is the one compared against. */
  datatype Monitor = Monitor(
    isMonitoring: bool,
    lastChangeCount: int,
    changeCount: int,
    lastChangeAt: Timestamp,
    currentInterval: int,
    timer: Option<Timer>)

  /** The result of one check: the monitor and history afterwards, the
      storage requests made, and the entry announced to the interface, if
      any. */
  datatype Outcome = Outcome(
    monitor: Monitor,
    history: ClipboardHistory.History,
    requests: seq<StorageService.Request>,
    posted: Option<Item>)

  /** The period is one of the two polling periods; a running timer repeats
      at the current period; the monitor runs exactly when it has a timer. */
  predicate Valid(m: Monitor) {
    && (m.currentInterval == IdleInterval || m.currentInterval == ActiveInterval)
    && (m.timer.Some? ==> m.timer.value.repeating == m.currentInterval)
    && (m.isMonitoring <==> m.timer.Some?)
  }

  /** The shared monitor as created: the pasteboard's counter taken, idle
      period, not running. */
  function Init(pasteboardCount: int, now: Timestamp): (m: Monitor)
    ensures Valid(m)
    ensures !m.isMonitoring && m.timer.None?
    ensures m.changeCount == pasteboardCount && m.lastChangeAt == now
    ensures m.currentInterval == IdleInterval && m.lastChangeCount == 0
  {
    Monitor(false, 0, pasteboardCount, now, IdleInterval, None)
  }

  /** `startMonitoring`: nothing happens when already running; otherwise
      the counter is taken from the pasteboard, the quiet time restarts and
      a timer firing now and every active period is started. */
  function Start(m: Monitor, pasteboardCount: int, now: Timestamp): (r: Monitor)
    ensures m.isMonitoring ==> r == m
    ensures !m.isMonitoring ==>
              && r.isMonitoring
              && r.changeCount == pasteboardCount && r.lastChangeCount == pasteboardCount
              && r.lastChangeAt == now
              && r.currentInterval == ActiveInterval
              && r.timer == Some(Timer(now, ActiveInterval, StartLeeway))
    ensures Valid(m) ==> Valid(r)
  {
    if m.isMonitoring then m
    else Monitor(true, pasteboardCount, pasteboardCount, now, ActiveInterval,
                 Some(Timer(now, ActiveInterval, StartLeeway)))
  }

  /** `stopMonitoring`: the timer is cancelled and dropped; the counters,
      the quiet time and the period are kept. */
  function Stop(m: Monitor): (r: Monitor)
    ensures !r.isMonitoring && r.timer.None?
    ensures r.changeCount == m.changeCount && r.lastChangeCount == m.lastChangeCount
    ensures r.lastChangeAt == m.lastChangeAt && r.currentInterval == m.currentInterval
    ensures Valid(m) ==> Valid(r)
  {
    m.(timer := None, isMonitoring := false)
  }

  /** The period polling should use: idle once the pasteboard has been
      quiet for at least `IdleAfter`, active before. */
  function TargetInterval(m: Monitor, now: Timestamp): (r: int)
    ensures r == IdleInterval <==> now - m.lastChangeAt >= IdleAfter
    ensures r == ActiveInterval <==> now - m.lastChangeAt < IdleAfter
  {
    if now - m.lastChangeAt >= IdleAfter then IdleInterval else ActiveInterval
  }

  /** `updateTimerIntervalIfNeeded`: without a timer nothing happens; with
      one, a period that differs from the target is replaced and the timer
      rescheduled to fire one new period from now. Only the period and the
      timer ever change. */
  function UpdateInterval(m: Monitor, now: Timestamp): (r: Monitor)
    ensures m.timer.None? ==> r == m
    ensures m.timer.Some? ==> r.currentInterval == TargetInterval(m, now)
    ensures m.timer.Some? && m.currentInterval == TargetInterval(m, now) ==> r == m
    ensures m.timer.Some? && m.currentInterval != TargetInterval(m, now) ==>
              r.timer == Some(Timer(now + r.currentInterval, r.currentInterval, RescheduleLeeway))
    ensures r.isMonitoring == m.isMonitoring && r.timer.Some? == m.timer.Some?
    ensures r.changeCount == m.changeCount && r.lastChangeCount == m.lastChangeCount
    ensures r.lastChangeAt == m.lastChangeAt
    ensures Valid(m) ==> Valid(r)
  {
    match m.timer
    case None => m
    case Some(_) =>
      var target := TargetInterval(m, now);
      if target == m.currentInterval then m
      else m.(currentInterval := target, timer := Some(Timer(now + target, target, RescheduleLeeway)))
  }

  /** `handlePasteboardChange`: the snapshot is classified; an entry that
      comes out goes to the history and is announced, whether or not the
      history took it. */
  function HandleChange(h: ClipboardHistory.History, snapshot: Snapshot, id: Uuid, now: Timestamp,
                        settings: ClipboardHistory.Settings): (o: (ClipboardHistory.Step, Option<Item>))
    ensures o.1 == FromPasteboard(snapshot, id, now)
    ensures o.1.None? ==> o.0 == ClipboardHistory.Step(h, [])
    ensures o.1.Some? ==> o.0 == ClipboardHistory.AddItem(h, o.1.value, settings)
  {
    match FromPasteboard(snapshot, id, now)
    case None => (ClipboardHistory.Step(h, []), None)
    case Some(x) => (ClipboardHistory.AddItem(h, x, settings), Some(x))
  }

  /** `checkForChanges`: one timer firing. A counter that differs from the
      stored one — in either direction — is a change: the counter is
      stored, the quiet time restarts, the period is updated and the new
      content handled. Otherwise only the period is updated. */
  function Check(m: Monitor, h: ClipboardHistory.History, snapshot: Snapshot, now: Timestamp,
                 id: Uuid, settings: ClipboardHistory.Settings): (o: Outcome)
    ensures o.monitor.changeCount == snapshot.changeCount
    ensures o.monitor.isMonitoring == m.isMonitoring && o.monitor.timer.Some? == m.timer.Some?
    ensures snapshot.changeCount == m.changeCount ==>
              o == Outcome(UpdateInterval(m, now), h, [], None)
    ensures snapshot.changeCount != m.changeCount ==>
              && o.monitor.lastChangeCount == snapshot.changeCount
              && o.monitor.lastChangeAt == now
              && o.posted == FromPasteboard(snapshot, id, now)
    ensures o.posted.None? ==> o.history == h && o.requests == []
    ensures o.posted.Some? ==>
              ClipboardHistory.Step(o.history, o.requests) == ClipboardHistory.AddItem(h, o.posted.value, settings)
  {
    if snapshot.changeCount != m.changeCount then
      var seen := m.(changeCount := snapshot.changeCount, lastChangeCount := snapshot.changeCount,
                     lastChangeAt := now);
      var m' := UpdateInterval(seen, now);
      var (step, posted) := HandleChange(h, snapshot, id, now, settings);
      Outcome(m', step.history, step.requests, posted)
    else
      Outcome(UpdateInterval(m, now), h, [], None)
  }

  /** Every operation keeps the monitor's invariant. */
  lemma CheckKeepsValid(m: Monitor, h: ClipboardHistory.History, snapshot: Snapshot, now: Timestamp,
                        id: Uuid, settings: ClipboardHistory.Settings)
    requires Valid(m)
    ensures Valid(Check(m, h, snapshot, now, id, settings).monitor)
  {
    if snapshot.changeCount != m.changeCount {
      var seen := m.(changeCount := snapshot.changeCount, lastChangeCount := snapshot.changeCount,
                     lastChangeAt := now);
      assert Valid(seen);
    }
  }

  /** Starting a running monitor, or stopping a stopped one, changes
      nothing. */
  lemma StartStopIdempotent(m: Monitor, c1: int, t1: Timestamp, c2: int, t2: Timestamp)
    ensures Start(Start(m, c1, t1), c2, t2) == Start(m, c1, t1)
    ensures Stop(Stop(m)) == Stop(m)
  {
  }

  /** Stopping then starting again resumes with fresh counters and a fresh
      active timer, whatever the state was. */
  lemma StopStartRestarts(m: Monitor, c: int, now: Timestamp)
    ensures Start(Stop(m), c, now) == Start(Init(c, now), c, now)
  {
  }

  /** The check `startMonitoring` makes straight away, on an unchanged
      pasteboard, finds no change, announces nothing and leaves the fresh
      state as it is. */
  lemma StartThenCheckIsQuiet(m: Monitor, h: ClipboardHistory.History, snapshot: Snapshot,
                              now: Timestamp, id: Uuid, settings: ClipboardHistory.Settings)
    requires !m.isMonitoring
    ensures var started := Start(m, snapshot.changeCount, now);
            Check(started, h, snapshot, now, id, settings) == Outcome(started, h, [], None)
  {
  }

  /** Once started, the published counter equals the compared one, and
      every later check and stop keeps them equal. */
  predicate CountersAgree(m: Monitor) {
    m.lastChangeCount == m.changeCount
  }

  lemma CountersAgreeKept(m: Monitor, c: int, h: ClipboardHistory.History, snapshot: Snapshot,
                          now: Timestamp, id: Uuid, settings: ClipboardHistory.Settings)
    ensures !m.isMonitoring ==> CountersAgree(Start(m, c, now))
    ensures CountersAgree(m) ==> CountersAgree(Start(m, c, now)) && CountersAgree(Stop(m))
    ensures CountersAgree(m) ==> CountersAgree(Check(m, h, snapshot, now, id, settings).monitor)
  {
  }

  /** A change always speeds polling up: the quiet time has just restarted,
      so a running monitor ends on the active period, and a monitor that was
      idle is rescheduled to fire one active period from now. */
  lemma ChangeActivatesPolling(m: Monitor, h: ClipboardHistory.History, snapshot: Snapshot,
                               now: Timestamp, id: Uuid, settings: ClipboardHistory.Settings)
    requires Valid(m) && m.isMonitoring
    requires snapshot.changeCount != m.changeCount
    ensures var r := Check(m, h, snapshot, now, id, settings).monitor;
            && r.currentInterval == ActiveInterval
            && (m.currentInterval == IdleInterval ==>
                  r.timer == Some(Timer(now + ActiveInterval, ActiveInterval, RescheduleLeeway)))
            && (m.currentInterval == ActiveInterval ==> r.timer == m.timer)
  {
  }

  /** Without a change, a running monitor slows to the idle period exactly
      when the pasteboard has been quiet for at least `IdleAfter`. */
  lemma QuietSlowsPolling(m: Monitor, h: ClipboardHistory.History, snapshot: Snapshot,
                          now: Timestamp, id: Uuid, settings: ClipboardHistory.Settings)
    requires Valid(m) && m.isMonitoring
    requires snapshot.changeCount == m.changeCount
    ensures var r := Check(m, h, snapshot, now, id, settings).monitor;
            r.currentInterval == IdleInterval <==> now - m.lastChangeAt >= IdleAfter
  {
  }

  /** A change whose content cannot be classified (no image, no non-empty
      text) is recorded in the counter but adds and announces nothing. */
  lemma UnclassifiedChangePostsNothing(m: Monitor, h: ClipboardHistory.History, snapshot: Snapshot,
                                       now: Timestamp, id: Uuid, settings: ClipboardHistory.Settings)
    requires snapshot.changeCount != m.changeCount
    requires snapshot.png.None? && (snapshot.text.None? || snapshot.text.value == "")
    ensures var o := Check(m, h, snapshot, now, id, settings);
            o.posted.None? && o.history == h && o.requests == [] && o.monitor.changeCount == snapshot.changeCount
  {
  }

  /** A copy of content already in the history is still announced, while
      the history stays as it was and nothing is saved. */
  lemma DuplicateStillPosted(m: Monitor, h: ClipboardHistory.History, snapshot: Snapshot,
                             now: Timestamp, id: Uuid, settings: ClipboardHistory.Settings)
    requires snapshot.changeCount != m.changeCount
    requires FromPasteboard(snapshot, id, now).Some?
    requires ClipboardHistory.IsDuplicate(h.items, FromPasteboard(snapshot, id, now).value)
    ensures var o := Check(m, h, snapshot, now, id, settings);
            o.posted == FromPasteboard(snapshot, id, now) && o.history == h && o.requests == []
  {
  }

  /** A check keeps the history's image counter in step with its images. */
  lemma CheckKeepsCounter(m: Monitor, h: ClipboardHistory.History, snapshot: Snapshot,
                          now: Timestamp, id: Uuid, settings: ClipboardHistory.Settings)
    requires ClipboardHistory.CounterMirrors(h)
    ensures ClipboardHistory.CounterMirrors(Check(m, h, snapshot, now, id, settings).history)
  {
    var o := Check(m, h, snapshot, now, id, settings);
    if o.posted.Some? {
      ClipboardHistory.AddItemKeepsCounter(h, o.posted.value, settings);
    }
  }
}

=== FILE: foundation.dfy ===
/** The platform values the clipboard engine builds on: UUIDs with their
    canonical upper-case string, the SHA-256 digest (an uninterpreted
    function; only its 32-byte result is relied upon) and timestamps. */
module Foundation {
  import opened Basics
  import Hex

  /** A UUID: sixteen bytes. */
  type Uuid = u: seq<byte> | |u| == 16 witness seq(16, _ => 0 as byte)

  /** `UUID.uuidString`: upper-case hexadecimal in groups of 8-4-4-4-12
      digits separated by hyphens. */
  function UuidString(u: Uuid): (r: string)
    ensures |r| == 36
    ensures r[8] == '-' && r[13] == '-' && r[18] == '-' && r[23] == '-'
  {
    Hex.Encode(u[0..4], true) + "-" + Hex.Encode(u[4..6], true) + "-"
    + Hex.Encode(u[6..8], true) + "-" + Hex.Encode(u[8..10], true) + "-"
    + Hex.Encode(u[10..16], true)
  }

  /** Two UUIDs with the same string are the same UUID, so a file name built
      from `uuidString` names exactly one item. */
  lemma UuidStringInjective(a: Uuid, b: Uuid)
    requires UuidString(a) == UuidString(b)
    ensures a == b
  {
    var s := UuidString(a);
    assert s[0..8] == Hex.Encode(a[0..4], true) && s[0..8] == Hex.Encode(b[0..4], true);
    assert s[9..13] == Hex.Encode(a[4..6], true) && s[9..13] == Hex.Encode(b[4..6], true);
    assert s[14..18] == Hex.Encode(a[6..8], true) && s[14..18] == Hex.Encode(b[6..8], true);
    assert s[19..23] == Hex.Encode(a[8..10], true) && s[19..23] == Hex.Encode(b[8..10], true);
    assert s[24..36] == Hex.Encode(a[10..16], true) && s[24..36] == Hex.Encode(b[10..16], true);
    Hex.EncodeInjective(a[0..4], b[0..4], true);
    Hex.EncodeInjective(a[4..6], b[4..6], true);
    Hex.EncodeInjective(a[6..8], b[6..8], true);
    Hex.EncodeInjective(a[8..10], b[8..10], true);
    Hex.EncodeInjective(a[10..16], b[10..16], true);
    assert a == a[0..4] + a[4..6] + a[6..8] + a[8..10] + a[10..16];
    assert b == b[0..4] + b[4..6] + b[6..8] + b[8..10] + b[10..16];
  }

  /** A SHA-256 digest: thirty-two bytes. */
  type Digest = d: seq<byte> | |d| == 32 witness seq(32, _ => 0 as byte)

  /** CryptoKit's `SHA256.hash(data:)`. Its internals are not modelled: the
      constant is an arbitrary, fixed function from bytes to 32-byte digests. */
  const Sha256: seq<byte> -> Digest

  /** The canonical form Swift's `String ==` compares: two texts are equal
      exactly when their canonical forms are, so a precomposed "é" equals
      "e" followed by a combining acute accent. Unicode normalisation itself
      is not modelled: the constant is an arbitrary, fixed function. */
  const CanonicalForm: string -> string

  /** Swift's `String ==`: equality up to canonical equivalence. */
  predicate StringEquals(a: string, b: string) {
    CanonicalForm(a) == CanonicalForm(b)
  }

  /** A `Date`, in whole milliseconds. */
  type Timestamp = int
}

=== FILE: hex.dfy ===
/** Two-digit hexadecimal formatting of bytes, as `String(format: "%02x")`
    (lower case) and `UUID.uuidString` (upper case) produce it, together with
    the parser that inverts it. */
module Hex {
  import opened Basics

  /** The hexadecimal digit for `n`, in lower or upper case. */
  function Digit(n: nat, upper: bool): (c: char)
    requires n < 16
  {
    if n < 10 then ('0' as int + n) as char
    else ((if upper then 'A' else 'a') as int + n - 10) as char
  }

  /** `c` is a hexadecimal digit of the chosen case. */
  predicate IsDigit(c: char, upper: bool) {
    || '0' <= c <= '9'
    || (upper && 'A' <= c <= 'F')
    || (!upper && 'a' <= c <= 'f')
  }

  /** The value of a hexadecimal digit of the chosen case, if `c` is one. */
  function DigitValue(c: char, upper: bool): (v: Option<nat>)
    ensures v.Some? <==> IsDigit(c, upper)
    ensures v.Some? ==> v.value < 16 && Digit(v.value, upper) == c
  {
    if '0' <= c <= '9' then Some(c as int - '0' as int)
    else if upper && 'A' <= c <= 'F' then Some(c as int - 'A' as int + 10)
    else if !upper && 'a' <= c <= 'f' then Some(c as int - 'a' as int + 10)
    else None
  }

  /** Every byte as two zero-padded hexadecimal digits, high nibble first. */
  function Encode(bs: seq<byte>, upper: bool): (r: string)
    ensures |r| == 2 * |bs|
    ensures forall i :: 0 <= i < |r| ==> IsDigit(r[i], upper)
  {
    if bs == [] then ""
    else [Digit(bs[0] as int / 16, upper), Digit(bs[0] as int % 16, upper)] + Encode(bs[1..], upper)
  }

  /** Parses pairs of hexadecimal digits back into bytes; `None` on an odd
      length or a character that is not a digit of the chosen case. */
  function Decode(s: string, upper: bool): (r: Option<seq<byte>>)
    ensures r.Some? ==> |s| == 2 * |r.value|
    decreases |s|
  {
    if |s| == 0 then Some([])
    else if |s| == 1 then None
    else
      match (DigitValue(s[0], upper), DigitValue(s[1], upper), Decode(s[2..], upper))
      case (Some(hi), Some(lo), Some(rest)) => Some([(hi * 16 + lo) as byte] + rest)
      case _ => None
  }

  /** Parsing recovers every formatted byte string. */
  lemma {:induction false} DecodeEncode(bs: seq<byte>, upper: bool)
    ensures Decode(Encode(bs, upper), upper) == Some(bs)
  {
    if bs != [] {
      var b := bs[0] as int;
      var s := Encode(bs, upper);
      assert s[2..] == Encode(bs[1..], upper);
      assert DigitValue(Digit(b / 16, upper), upper) == Some(b / 16);
      assert DigitValue(Digit(b % 16, upper), upper) == Some(b % 16);
      DecodeEncode(bs[1..], upper);
      assert bs == [bs[0]] + bs[1..];
    }
  }

  /** Distinct byte strings format to distinct hexadecimal strings. */
  lemma EncodeInjective(a: seq<byte>, b: seq<byte>, upper: bool)
    requires Encode(a, upper) == Encode(b, upper)
    ensures a == b
  {
    DecodeEncode(a, upper);
    DecodeEncode(b, upper);
  }
}

=== FILE: storage_service.dfy ===
/** The persistence layer: one metadata document listing every entry without
    its image bytes, and an image directory with one `<UUID>.png` file per
    image entry. The disk is abstract: the document is represented by the
    entries a decoder reads back from it, and the image directory by a map
    from file name to bytes. I/O failures are a parameter. */
module StorageService {
  import opened Basics
  import opened Foundation
  import opened ClipboardItem

  /** A call made on the storage service by the history. */
  datatype Request = CallDeleteImage(id: Uuid) | CallSaveHistory(items: seq<Item>)

  /** The history document (absent before the first save) and the files of
      the image directory. */
  datatype Disk = Disk(doc: Option<seq<Item>>, images: map<string, seq<byte>>)

  /** Which I/O steps fail: writing (or, on load, reading and decoding) the
      document, and writing (or reading) the image files of the given ids. */
  datatype Faults = Faults(docFails: bool, blobFails: set<Uuid>)

  const NoFaults: Faults := Faults(false, {})

  /** The image file of an entry: `id.uuidString + ".png"`. */
  function ImageFileName(id: Uuid): (r: string)
    ensures |r| == 40
  {
    UuidString(id) + ".png"
  }

  /** Distinct entries never share an image file. */
  lemma ImageFileNameInjective(a: Uuid, b: Uuid)
    requires ImageFileName(a) == ImageFileName(b)
    ensures a == b
  {
    assert ImageFileName(a)[..36] == UuidString(a);
    assert ImageFileName(b)[..36] == UuidString(b);
    UuidStringInjective(a, b);
  }

  /** The ISO-8601 date strategy writes whole seconds: a date reads back
      rounded down to its second. */
  function Iso8601(t: Timestamp): (r: Timestamp)
    ensures r % 1000 == 0
    ensures r <= t < r + 1000
  {
    t - t % 1000
  }

  /** An image entry that carries bytes, whose bytes therefore go to a file. */
  predicate HasBlob(x: Item) {
    x.contentType == Image && x.imageData.Some?
  }

  /** The entry as the document holds it: image bytes of an image entry are
      left out, every other field is kept, and the date loses its fraction
      of a second. */
  function Stored(x: Item): (r: Item)
    ensures HasBlob(x) ==> r.imageData.None?
    ensures !HasBlob(x) ==> r.imageData == x.imageData
    ensures r.id == x.id && r.contentType == x.contentType && r.isPinned == x.isPinned
    ensures r.textContent == x.textContent && r.htmlContent == x.htmlContent
    ensures r.url == x.url && r.filePath == x.filePath
    ensures r.createdAt == Iso8601(x.createdAt)
  {
    var kept := if HasBlob(x) then x.(imageData := None) else x;
    kept.(createdAt := Iso8601(kept.createdAt))
  }

  /** No two entries share an id. */
  predicate UniqueIds(items: seq<Item>) {
    forall i, j :: 0 <= i < j < |items| ==> items[i].id != items[j].id
  }

  /** The image writes of one save: each image entry with bytes, in order,
      is written to its file unless that write fails. */
  function WriteImages(images: map<string, seq<byte>>, items: seq<Item>, fails: set<Uuid>)
    : (r: map<string, seq<byte>>)
    ensures images.Keys <= r.Keys
    decreases |items|
  {
    if items == [] then images
    else
      var x := items[0];
      var written := if HasBlob(x) && x.id !in fails
                     then images[ImageFileName(x.id) := x.imageData.value]
                     else images;
      WriteImages(written, items[1..], fails)
  }

  /** After the writes, the file of an image entry whose write succeeded
      holds that entry's bytes. */
  lemma {:induction false} WriteImagesStores(images: map<string, seq<byte>>, items: seq<Item>,
                                             fails: set<Uuid>, i: nat)
    requires UniqueIds(items)
    requires i < |items| && HasBlob(items[i]) && items[i].id !in fails
    ensures ImageFileName(items[i].id) in WriteImages(images, items, fails)
    ensures WriteImages(images, items, fails)[ImageFileName(items[i].id)] == items[i].imageData.value
    decreases |items|
  {
    var x := items[0];
    var written := if HasBlob(x) && x.id !in fails
                   then images[ImageFileName(x.id) := x.imageData.value]
                   else images;
    if i == 0 {
      forall j | 0 <= j < |items[1..]| && HasBlob(items[1..][j]) && items[1..][j].id !in fails
        ensures ImageFileName(items[1..][j].id) != ImageFileName(x.id)
      {
        if ImageFileName(items[1..][j].id) == ImageFileName(x.id) {
          ImageFileNameInjective(items[1..][j].id, x.id);
        }
      }
      WriteImagesUntouched(written, items[1..], fails, ImageFileName(x.id));
    } else {
      WriteImagesStores(written, items[1..], fails, i - 1);
    }
  }

  /** A file that no successful write names keeps its state. */
  lemma {:induction false} WriteImagesUntouched(images: map<string, seq<byte>>, items: seq<Item>,
                                                fails: set<Uuid>, key: string)
    requires forall i :: 0 <= i < |items| && HasBlob(items[i]) && items[i].id !in fails
               ==> ImageFileName(items[i].id) != key
    ensures key in WriteImages(images, items, fails) <==> key in images
    ensures key in images ==> WriteImages(images, items, fails)[key] == images[key]
    decreases |items|
  {
    if items != [] {
      var x := items[0];
      var written := if HasBlob(x) && x.id !in fails
                     then images[ImageFileName(x.id) := x.imageData.value]
                     else images;
      WriteImagesUntouched(written, items[1..], fails, key);
    }
  }

  /** `saveHistory`: writes the image files, then the document with the
      image bytes stripped. A failed image write does not stop the document
      write; a failed document write leaves the previous document in place
      (the write is atomic). No image file is ever removed. */
  function SaveHistory(disk: Disk, items: seq<Item>, faults: Faults): (d: Disk)
    ensures faults.docFails ==> d.doc == disk.doc
    ensures !faults.docFails ==>
              d.doc.Some? && |d.doc.value| == |items|
              && forall i :: 0 <= i < |items| ==> d.doc.value[i] == Stored(items[i])
    ensures disk.images.Keys <= d.images.Keys
  {
    var written := WriteImages(disk.images, items, faults.blobFails);
    var doc := if faults.docFails then disk.doc
               else Some(seq(|items|, i requires 0 <= i < |items| => Stored(items[i])));
    Disk(doc, written)
  }

  /** `loadImageFromDisk`: the bytes of an entry's image file, if the file
      exists and can be read. */
  function LoadImage(images: map<string, seq<byte>>, id: Uuid, fails: set<Uuid>): (r: Option<seq<byte>>)
    ensures r.Some? <==> ImageFileName(id) in images && id !in fails
    ensures r.Some? ==> r.value == images[ImageFileName(id)]
  {
    var name := ImageFileName(id);
    if name in images && id !in fails then Some(images[name]) else None
  }

  /** A decoded entry with its image file re-attached, when it is an image
      whose file loads. */
  function Reattach(x: Item, images: map<string, seq<byte>>, fails: set<Uuid>): (r: Item)
    ensures r == x.(imageData := r.imageData)
    ensures x.contentType != Image ==> r == x
    ensures x.contentType == Image && ImageFileName(x.id) in images && x.id !in fails ==>
              r.imageData == Some(images[ImageFileName(x.id)])
    ensures !(ImageFileName(x.id) in images && x.id !in fails) ==> r == x
  {
    if x.contentType == Image then
      match LoadImage(images, x.id, fails)
      case Some(data) => x.(imageData := Some(data))
      case None => x
    else x
  }

  /** An image a save wrote is read back with the bytes it was written
      with, unless reading it fails. */
  lemma SavedImageLoads(images: map<string, seq<byte>>, items: seq<Item>,
                        writeFails: set<Uuid>, readFails: set<Uuid>, i: nat)
    requires UniqueIds(items)
    requires i < |items| && HasBlob(items[i]) && items[i].id !in writeFails
    ensures LoadImage(WriteImages(images, items, writeFails), items[i].id, readFails)
            == if items[i].id in readFails then None else items[i].imageData
  {
    WriteImagesStores(images, items, writeFails, i);
  }

  /** Re-attaching twice reads the same file again: the second pass changes
      nothing. */
  lemma ReattachIdempotent(x: Item, images: map<string, seq<byte>>, fails: set<Uuid>)
    ensures Reattach(Reattach(x, images, fails), images, fails) == Reattach(x, images, fails)
  {
  }

  /** `loadHistory`: no document, or one that cannot be read or decoded,
      gives an empty history; otherwise every image entry gets its file's
      bytes back, and an image entry whose file is missing is kept as it
      was decoded. Order and all other entries are unchanged. */
  function LoadHistory(disk: Disk, faults: Faults): (r: seq<Item>)
    ensures disk.doc.None? || faults.docFails ==> r == []
    ensures disk.doc.Some? && !faults.docFails ==> |r| == |disk.doc.value|
    ensures disk.doc.Some? && !faults.docFails ==>
              forall i :: 0 <= i < |r| ==>
                var e := disk.doc.value[i];
                && r[i] == e.(imageData := r[i].imageData)
                && (e.contentType != Image ==> r[i] == e)
                && (e.contentType == Image ==>
                      r[i].imageData == LoadImage(disk.images, e.id, faults.blobFails).OrElse(e.imageData))
  {
    match disk.doc
    case None => []
    case Some(entries) =>
      if faults.docFails then []
      else seq(|entries|, i requires 0 <= i < |entries| => Reattach(entries[i], disk.images, faults.blobFails))
  }

  /** `deleteImage(for:)`: removes the entry's image file; nothing happens
      when there is none. */
  function DeleteImage(disk: Disk, id: Uuid): (d: Disk)
    ensures d.doc == disk.doc
    ensures ImageFileName(id) !in d.images
    ensures forall k :: k != ImageFileName(id) ==> (k in d.images <==> k in disk.images)
    ensures forall k :: k in d.images ==> d.images[k] == disk.images[k]
    ensures ImageFileName(id) !in disk.images ==> d == disk
  {
    Disk(disk.doc, disk.images - {ImageFileName(id)})
  }

  /** `clearImageCache`: the image directory is emptied; the document is not
      touched. */
  function ClearImageCache(disk: Disk): (d: Disk)
    ensures d.doc == disk.doc && d.images == map[]
  {
    Disk(disk.doc, map[])
  }

  /** Carries out one request. */
  function Perform(disk: Disk, request: Request, faults: Faults): Disk {
    match request
    case CallDeleteImage(id) => DeleteImage(disk, id)
    case CallSaveHistory(items) => SaveHistory(disk, items, faults)
  }

  /** Carries out requests in order. */
  function Apply(disk: Disk, requests: seq<Request>, faults: Faults): Disk
    decreases |requests|
  {
    if requests == [] then disk
    else Apply(Perform(disk, requests[0], faults), requests[1..], faults)
  }

  /** Every entry with its date at whole seconds. */
  function AtWholeSeconds(items: seq<Item>): (r: seq<Item>)
    ensures |r| == |items|
    ensures forall i :: 0 <= i < |items| ==> r[i] == items[i].(createdAt := Iso8601(items[i].createdAt))
  {
    seq(|items|, i requires 0 <= i < |items| => items[i].(createdAt := Iso8601(items[i].createdAt)))
  }

  /** No image entry without bytes has a file left over on disk (such a file
      would be attached to it on load). */
  predicate NoStaleImage(disk: Disk, items: seq<Item>) {
    forall i :: 0 <= i < |items| && items[i].contentType == Image && items[i].imageData.None?
      ==> ImageFileName(items[i].id) !in disk.images
  }

  /** Round trip: saving a history with unique ids, none of whose image
      entries without bytes has a file left over on disk, and loading it
      back, with every write and read succeeding, gives back the same
      entries in the same order, image bytes included, with dates at whole
      seconds. `StaleFileIsAttached` shows the second condition cannot be
      dropped. */
  lemma SaveLoadRoundTrip(disk: Disk, items: seq<Item>)
    requires UniqueIds(items)
    requires NoStaleImage(disk, items)
    ensures LoadHistory(SaveHistory(disk, items, NoFaults), NoFaults) == AtWholeSeconds(items)
  {
    var loaded := LoadHistory(SaveHistory(disk, items, NoFaults), NoFaults);
    forall i | 0 <= i < |items|
      ensures loaded[i] == AtWholeSeconds(items)[i]
    {
      RoundTripAt(disk, items, i);
    }
  }

  /** Without `NoStaleImage` the round trip fails: an image entry saved
      without bytes comes back carrying the bytes of a file left over
      under its name. */
  lemma StaleFileIsAttached(disk: Disk, x: Item)
    requires x.contentType == Image && x.imageData.None?
    requires ImageFileName(x.id) in disk.images
    ensures LoadHistory(SaveHistory(disk, [x], NoFaults), NoFaults)
            == [x.(createdAt := Iso8601(x.createdAt), imageData := Some(disk.images[ImageFileName(x.id)]))]
    ensures LoadHistory(SaveHistory(disk, [x], NoFaults), NoFaults) != AtWholeSeconds([x])
  {
    NoFileAfterSave(disk, [x], 0);
  }

  /** The round trip, one entry at a time: an image entry gets back the
      bytes the save wrote for it, or, having none, finds no file. */
  lemma RoundTripAt(disk: Disk, items: seq<Item>, i: nat)
    requires UniqueIds(items)
    requires NoStaleImage(disk, items)
    requires i < |items|
    ensures var written := WriteImages(disk.images, items, {});
            Reattach(Stored(items[i]), written, {}) == items[i].(createdAt := Iso8601(items[i].createdAt))
  {
    var x := items[i];
    if HasBlob(x) {
      WriteImagesStores(disk.images, items, {}, i);
    } else if x.contentType == Image {
      NoFileAfterSave(disk, items, i);
    }
  }

  /** A save creates no file for an image entry without bytes. */
  lemma NoFileAfterSave(disk: Disk, items: seq<Item>, i: nat)
    requires UniqueIds(items)
    requires i < |items| && !HasBlob(items[i])
    ensures ImageFileName(items[i].id) in WriteImages(disk.images, items, {})
            <==> ImageFileName(items[i].id) in disk.images
  {
    var x := items[i];
    forall j | 0 <= j < |items| && HasBlob(items[j])
      ensures ImageFileName(items[j].id) != ImageFileName(x.id)
    {
      if ImageFileName(items[j].id) == ImageFileName(x.id) {
        ImageFileNameInjective(items[j].id, x.id);
      }
    }
    WriteImagesUntouched(disk.images, items, {}, ImageFileName(x.id));
  }

  /** A history saved after any number of file deletions loads back as
      saved, and leaves no stale file behind for the next save. */
  lemma {:induction false} SaveAfterDeletes(disk: Disk, deletions: seq<Request>, items: seq<Item>)
    requires forall k :: 0 <= k < |deletions| ==> deletions[k].CallDeleteImage?
    requires UniqueIds(items) && NoStaleImage(disk, items)
    ensures var d := Apply(disk, deletions + [CallSaveHistory(items)], NoFaults);
            LoadHistory(d, NoFaults) == AtWholeSeconds(items) && NoStaleImage(d, items)
    decreases |deletions|
  {
    if deletions == [] {
      assert deletions + [CallSaveHistory(items)] == [CallSaveHistory(items)];
      var saved := SaveHistory(disk, items, NoFaults);
      assert Apply(disk, [CallSaveHistory(items)], NoFaults) == Apply(saved, [], NoFaults);
      SaveLoadRoundTrip(disk, items);
      forall i | 0 <= i < |items| && items[i].contentType == Image && items[i].imageData.None?
        ensures ImageFileName(items[i].id) !in saved.images
      {
        NoFileAfterSave(disk, items, i);
      }
    } else {
      var next := Perform(disk, deletions[0], NoFaults);
      assert (deletions + [CallSaveHistory(items)])[1..] == deletions[1..] + [CallSaveHistory(items)];
      SaveAfterDeletes(next, deletions[1..], items);
    }
  }

  /** With dates already at whole seconds the round trip is exact. */
  lemma SaveLoadIdentity(disk: Disk, items: seq<Item>)
    requires UniqueIds(items)
    requires NoStaleImage(disk, items)
    requires forall i :: 0 <= i < |items| ==> items[i].createdAt % 1000 == 0
    ensures LoadHistory(SaveHistory(disk, items, NoFaults), NoFaults) == items
  {
    SaveLoadRoundTrip(disk, items);
  }

  /** Clearing the image cache after a save keeps every entry but leaves
      each image entry without bytes: exactly the stored document. */
  lemma ClearCacheDegradesImages(disk: Disk, items: seq<Item>)
    ensures LoadHistory(ClearImageCache(SaveHistory(disk, items, NoFaults)), NoFaults)
            == seq(|items|, i requires 0 <= i < |items| => Stored(items[i]))
  {
  }
}
